=== FILE: README.md ===
# CLAMS wrangler: a verified model of the per-file pipeline

CLAMSwrangler turns Columbus Instruments CLAMS metabolic-cage exports into
analysis-ready tables, in four stages. This project models the per-file
logic of each stage in Dafny and proves what each stage promises:

- **clean** (`clean_file`): read the subject id from the export's header
  block, drop the two formatting rows under the column header, and name the
  file `<stem>_ID<subject><ext>`;
- **trim** (`trim_all_clams_data`): cut the acclimation hours, find the first
  light-phase (`LED LIGHTNESS`) change after the cut, and keep `keep_hours`
  from that change on;
- **bin** (`bin_clams_data`): label each phase's rows with bins of
  `bin_hours`, collapse every `(phase, label)` group to one row (sums, last
  values, first and last times, means), sort the groups by their first
  interval, and number them (`BIN`, `DAILY_BIN`, `DAY`);
- **recombine** (`split_csv_files`, `extract_id_number`): for every selected
  metric, lay each binned file's series out as one row labelled `ID<subject>`,
  padding shorter series.

Modules, one file each:

- `Common`: `Option`, `Result` and the failures the source raises.
- `Text`: the Python string operations the pipeline relies on.
- `Naming`: the file names along the pipeline and `extract_id_number`.
- `Cleaner`, `Table`, `Trimmer`, `Labelling`, `Binner`, `Recombiner`.

Conventions:

- Tables are sequences of `Row` records.
- Timestamps are whole seconds, `None` where the text could not be parsed.
- Hours are integers.
- The failures the cleaner and the trimmer reach by an exception on
  well-formed columns (no `Subject ID` line, no second header field, too
  few rows, no row after the cutoff, no phase change) are `Err` values.
  The binner returns no `Result`: its requires exclude the inputs on
  which it would fail (see "## Left out").

## Model

| member | source | states |
|---|---|---|
| Text.JoinSplit | clams_processing.py:28 | Splitting a header line on commas loses nothing: joining the fields back with commas gives the line. |
| Text.SplitJoin | clams_processing.py:28 | A line written as comma-joined fields without commas splits back into exactly those fields. |
| Text.Strip | clams_processing.py:28 | The stripped text neither starts nor ends with whitespace (the full Python whitespace set), and holds only characters of its input. |
| Text.StripSurrounded | clams_processing.py:28 | Stripping a value padded with whitespace on both sides gives the value. |
| Text.Split | clams_processing.py:28 | At least one field, none holding the separator. A line without the separator is its own single field; a line with one has at least two fields. |
| Text.Basename | clams_processing.py:38 | The base name holds no `/` and ends the path. When the path has a `/`, the base name starts right after the last one; otherwise it is the whole path. |
| Text.SplitExt | clams_processing.py:39 | Stem and extension concatenate to the name. A non-empty extension starts with its only dot, behind a stem that has a character other than a dot. An empty extension means no dot has such a character before it, so leading dots never start an extension. |
| Text.Lower | clams_processing.py:40 | Lower-casing keeps the length, maps `A`-`Z` to `a`-`z` and leaves every other character alone. |
| Text.SplitExtAt | clams_processing.py:39 | `splitext` gives back a stem with a character other than a dot and an extension that opens with its only dot, whatever dots the stem holds. |
| Text.ReplaceAll | clams_processing.py:207 | A name that holds no occurrence of the pattern is left unchanged. |
| Text.ReplaceAllSelf | clams_processing.py:207 | Replacing a pattern by itself gives back any string, occurrences included: the scan rebuilds every occurrence it consumes. |
| Text.ReplaceAllAppend | clams_processing.py:207 | When no occurrence of the pattern straddles the seam, replacing in `a + b` is replacing in `a` and in `b` separately. |
| Text.ReplaceAllLeftmost | clams_processing.py:207 | The leftmost occurrence is the one replaced: when `a` and the pattern's first characters hold no occurrence, `a + pat + b` becomes `a + rep` followed by the replacement of `b`. |
| Text.ReplaceAllCreatesNoRun | clams_processing.py:207 | Replacing by text that has no character of a set creates no run of that set's characters: any such run in the result was already in the input. |
| Text.KeepsAbsent | clams_processing.py:207 | A string absent from the input stays absent after a replacement whose text shares no character with it. |
| Text.ReplaceAllKeepsPrefix | clams_processing.py:207 | Replacing `.csv` leaves untouched a prefix that contains no occurrence and cannot start one. |
| Naming.FirstIdRun | clams_processing.py:234 | The search returns the leftmost position where `ID` and four digits start, or reports that none exists. |
| Naming.ExtractId | clams_processing.py:232-238 | An id is returned exactly when the name contains `ID` and four digits. It is those four digits of the leftmost such run. |
| Naming.IdAfterStem | clams_processing.py:232-238 | Behind a stem with no id run, `_ID` and a four-digit id are found whatever follows. |
| Naming.CleanedName | clams_processing.py:37-41 | A four-digit subject id, written behind a stem that holds no id run of its own, is what `extract_id_number` reads back from the cleaned name. |
| Naming.TrimmedName | clams_processing.py:115-118 | When the name has an extension, `splitext` of the trimmed name gives the old stem plus `_trimmed`, and the lower-cased extension. |
| Naming.BinnedName | clams_processing.py:207 | Both rewrites, in the source's order. A name without `.csv` only has every `Trimmed_CLAMS_data` turned into `Binned_CLAMS_data`. A name whose only `.csv` ends it gets that directory rewrite on the part before the `.csv`, and `_binned.csv` in place of the `.csv`. |
| Naming.BinnedOfCsv | clams_processing.py:207 | For every core, `.csv` cores included, binning `<core>.csv` gives the binned core followed by `_binned.csv`. |
| Naming.BinnedKeepsTail | clams_processing.py:207 | A tail with no `T` and no dot, opening with `_` and a character absent from `Trimmed_CLAMS_data`, passes through both rewrites unchanged behind any stem. |
| Naming.TrimmedOfCsv | clams_processing.py:115-118 | Trimming `<core>.csv` gives `<core>_trimmed.csv` for any core with a character other than a dot, dotted cores included. |
| Naming.BinnedOfTrimmed | clams_processing.py:207 | For such a tail and any stem, binning `<stem><tail>.csv` bins the stem, keeps the tail and turns the final `.csv` into `_binned.csv`. |
| Naming.TrimmedStageName | clams_processing.py:115-118 | The trimmed name of `<stem>_ID<sid>.csv` is `<stem>_ID<sid>_trimmed.csv`, for every stem and id. |
| Naming.BinnedStageName | clams_processing.py:207 | For every stem and digit id, binning `<stem>_ID<sid>_trimmed.csv` gives the binned stem followed by `_ID<sid>_trimmed_binned.csv`, also when the stem holds `.csv` or `Trimmed_CLAMS_data`. |
| Naming.NoIdRunAfterReplace | clams_processing.py:207 | Replacing by text without `I`, `D` or a digit keeps a name free of `ID`-and-four-digit runs. |
| Naming.BinnedKeepsNoIdRun | clams_processing.py:207 | Binning creates no id run: a name without `ID` and four digits has none after both rewrites. |
| Naming.IdSurvivesPipeline | clams_processing.py:232-238 | Take a `.csv` export whose stem holds no id run; dots and `.csv` are allowed, as in `2023.05.01_cage1.csv` or `a.csv.csv`. `extract_id_number` recovers its four-digit subject id from the cleaned, the trimmed and the binned name. |
| Cleaner.FirstLineWith | clams_processing.py:26-29 | The first line containing the key, or none when no line does. |
| Cleaner.SubjectId | clams_processing.py:26-29 | It fails with no "Subject ID" line exactly when no line has the key. Otherwise the id is the stripped second comma field of the first such line. It fails with no second field only when that line has no comma. A found id never holds a comma. |
| Cleaner.SubjectIdFromHeader | clams_processing.py:26-29 | A first "Subject ID" line written as comma-separated fields, with the id padded by blanks in the second field, yields exactly that id. |
| Cleaner.CleanFile | clams_processing.py:26-41 | Succeeds exactly when the id is found and there are two formatting rows. Errors come in the source's order: a missing second field first, then too few rows, then a missing "Subject ID" line. The rows are the input minus exactly its first two, and the name is the cleaned name for that id. |
| Cleaner.CleanedNameShape | clams_processing.py:37-41 | The cleaned name starts with the stem, has `_ID<id>` right after it, and ends with the lower-cased extension. |
| Cleaner.CsvExports | clams_processing.py:54-56 | An export is selected exactly when its path ends in `.csv` in any ASCII letter case. |
| Cleaner.CsvExportsAppend | clams_processing.py:54-56 | Selection distributes over concatenation, so the selected exports keep their listing order. |
| Cleaner.CsvSingle | clams_processing.py:54-56 | A single export is selected exactly when its path ends in `.csv`. |
| Cleaner.RunEach | clams_processing.py:58-59 | A run over files succeeds exactly when every file does, with one result per file in order. Otherwise it stops with the first file's failure. |
| Cleaner.CleanAll | clams_processing.py:48-59 | When the output directory exists, nothing is cleaned. Otherwise every `.csv` export is cleaned in listing order: entry `k` is the `k`-th one cleaned, and the batch fails exactly when some export fails, with the failure of the first such export. |
| Cleaner.CleanExportOf1234 | clams_processing.py:19-41 | A concrete export `a.csv` with header `Subject ID,1234` and three rows cleans to one data row under the name for subject `1234`. |
| Cleaner.OutputDirectoryGuard | clams_processing.py:48-59 | The guard decides the whole batch. One `.csv` export that cleans without error yields nothing when the output directory exists, and its cleaned file when it does not. |
| Trimmer.Cutoff | clams_processing.py:96 | The cutoff exists exactly when the first row has a timestamp. It lies `trim_hours` after that timestamp, so not before it when `trim_hours` is not negative. |
| Trimmer.FirstAfterCutoff | clams_processing.py:99-102 | The first row at or after a position whose timestamp is at or after the cutoff, or none. |
| Trimmer.FirstLeaving | clams_processing.py:105 | The first row after the cut, at or after a position, whose phase differs from the reference phase, or none. |
| Trimmer.FindAnchor | clams_processing.py:96-105 | An anchor it returns is the first row after the cut in a phase other than the reference phase (that of the first row after the cut), and its time is at least first time + `trim_hours`. An empty table, no row after the cut, and a single phase after the cut are each characterised exactly. |
| Trimmer.FindAnchorExact | clams_processing.py:96-105 | The edge detector returns `a` if and only if `a` is the anchor. |
| Trimmer.Window | clams_processing.py:111-112 | Every row kept lies inside the window, and a row with no timestamp is never kept. |
| Trimmer.WindowAppend | clams_processing.py:111-112 | Filtering distributes over concatenation, so table order is kept. |
| Trimmer.WindowMembers | clams_processing.py:111-112 | A row is kept exactly when it is in the table and inside the window. |
| Trimmer.Trim | clams_processing.py:93-112 | Fails exactly as the edge detector fails. Otherwise every kept row has a timestamp, within `keep_hours` after the anchor's. |
| Trimmer.TrimKeepsWindow | clams_processing.py:108-112 | Any row of the whole table, before or after the cut, is kept exactly when its timestamp lies in the window. The anchor row is kept when `keep_hours` is not negative. |
| Trimmer.TrimStartsAtAnchor | clams_processing.py:108-112 | With the timed rows in time order (rows without a timestamp may sit anywhere), the trimmed table starts at the anchor's timestamp. |
| Labelling.Walk | clams_processing.py:143-151 | One label per timestamp of the phase, and the first is 0 for a positive bin size. |
| Labelling.WalkIsPhaseLabelling | clams_processing.py:143-151 | The labels of one phase satisfy the labelling rule: they start at 0 and rise by 0 or 1 per row. They rise exactly when the row is `bin_hours` or more past the first row of the current bin. |
| Labelling.PhaseLabellingUnique | clams_processing.py:143-151 | Only one labelling satisfies the rule, so the rule defines the labels. |
| Labelling.BinSpanBelow | clams_processing.py:147-150 | Every row lies strictly less than `bin_hours` after the first row of its bin. |
| Labelling.LabelsMonotone | clams_processing.py:147-151 | Labels never decrease down a phase. |
| Labelling.WalkPrefix | clams_processing.py:147-151 | A row's label depends only on the rows before it. |
| Labelling.LabelPhase | clams_processing.py:143-151 | The imperative loop computes the labelling, and it satisfies the rule. |
| Labelling.RowLabels | clams_processing.py:141-153 | One label per row of the table. |
| Labelling.RowLabelsFollowPhases | clams_processing.py:141-153 | Read in table order, the labels written back into the table for each phase value are the labels of the walk over that phase's rows. |
| Binner.Distinct | clams_processing.py:165 | The group keys: each key of the table once, and nothing else. |
| Binner.Group | clams_processing.py:165 | A key's group is non-empty exactly when some row has that key, and it holds only rows of the table. |
| Binner.GroupAppend | clams_processing.py:165 | Grouping distributes over concatenation, so a group holds its key's rows in table order. |
| Binner.GroupSingle | clams_processing.py:165 | A single row forms the group of its own key, and of no other. |
| Binner.Collapse | clams_processing.py:156-182 | The collapsed row carries its group's key. When the group's timestamps are in order, its first and last times bound every row and the duration is not negative. |
| Binner.SortBy | clams_processing.py:185 | The sorted groups are in `INTERVAL_start` order and are a permutation of the unsorted ones. |
| Binner.SortDistinct | clams_processing.py:185 | Sorting keeps the group keys distinct. |
| Binner.Number | clams_processing.py:185-195 | Numbering keeps the sorted groups in place. `BIN` is the position, `DAILY_BIN` is below `24 div bin_hours`, and `DAY` is at least 1. |
| Binner.DailyBinCycles | clams_processing.py:195 | `DAILY_BIN` equals `BIN` during the first day, then repeats every `24 div bin_hours` bins. |
| Binner.Collapsed | clams_processing.py:156-167 | The group-by yields one collapsed row per distinct `(LED LIGHTNESS, label)` key of the table: the keys of the result are pairwise distinct and there are as many rows as distinct keys. |
| Binner.Bin | clams_processing.py:123-195 | One output row per distinct `(phase, label)` key, with keys distinct and sorted by `INTERVAL_start`. `BIN` is the 0-based position and `DAILY_BIN = BIN mod (24 div bin_hours)`. `DAY = label * bin_hours div 12 + 1`, at least 1, from the group's own per-phase label. |
| Binner.BinRowIsCollapse | clams_processing.py:156-182 | Each output row is the collapse of the non-empty group of input rows sharing its key. |
| Binner.BinIsCollapsedGroup | clams_processing.py:156-182 | Each output row holds its group's last `CHAN`, `ACCO2`, `ACCCO2`, `FEED1 ACC` and `WHEEL ACC`; the first and last `INTERVAL` and `DATE/TIME`; the hours between those times; the sums of `WHEEL`, `FEED1` and `TOT_AMB = XAMB + YAMB`; and the means of the averaged measures. |
| Binner.BinCoversEveryRow | clams_processing.py:165-167 | Every input row lands in exactly one output row, the one carrying its phase and label. |
| Binner.PartitionTotal | clams_processing.py:165-167 | The groups partition the table, so their totals add up to the table's total. |
| Binner.BinConservesTotals | clams_processing.py:159-167 | Binning conserves every summed counter: the wheel, feed and ambulatory totals of the binned table equal those of the trimmed table. |
| Recombiner.ColumnName | clams_processing.py:272 | Without a `(` in the metric or the id, the renamed column splits at its only `(` into the metric and `ID<id>)`. |
| Recombiner.RowLabel | clams_processing.py:281 | A label exists exactly when a `(` follows the first three characters. It never holds `)` and has no surrounding whitespace. |
| Recombiner.RowLabelOfColumnName | clams_processing.py:272-281 | Parsing a renamed column `<metric> (ID<id>)` back gives `ID<id>`, for any metric of at least three characters without a parenthesis. |
| Recombiner.SelectedRowLabel | clams_processing.py:254-281 | For every selected metric and every id `extract_id_number` can return, the row label is `ID<id>`, or `IDNone` when there is no id. |
| Recombiner.Label | clams_processing.py:261-281 | The label of a file's row is `ID` followed by that file's extracted id (or `None`). |
| Recombiner.Contributors | clams_processing.py:257-268 | A file contributes to a metric exactly when its name ends in `.csv` and it holds that column. |
| Recombiner.ContributorsAppend | clams_processing.py:257-268 | Selecting contributors distributes over concatenation, so contributors keep their listing order. |
| Recombiner.ContributorsSingle | clams_processing.py:257-268 | A single file contributes itself exactly when it is a `.csv` file holding the metric, and nothing otherwise. |
| Recombiner.MaxLen | clams_processing.py:273 | The outer join is as long as the longest series. |
| Recombiner.Pad | clams_processing.py:273 | A padded series keeps its values in place, and every cell beyond them is missing. |
| Recombiner.UnpadPad | clams_processing.py:273 | Padding loses nothing: the series reads back from its padded row. |
| Recombiner.CombineMetric | clams_processing.py:257-281 | One row per contributing file, in listing order, so never more rows than files. Each row is labelled with the file's id and holds that file's series padded to the common width. |
| Recombiner.CombinedCells | clams_processing.py:273-281 | Row `j`, cell `k` holds bin `k` of the `j`-th contributing file where it has one, and is missing beyond. All rows are as wide as the longest series, which some row fills exactly, and each series reads back from its row. |
| Recombiner.Combine | clams_processing.py:254-284 | A combined table exists for a metric exactly when it is selected and some `.csv` file of the listing holds it. |
| Recombiner.BinnedColumns | clams_processing.py:197-212 | A binned table written out holds every selected column, each one value per bin. |
| Recombiner.EqualBinsNeedNoPadding | clams_processing.py:257-281 | When every file is a binned `.csv` table with the same number of bins, every selected metric is combined and every file contributes. No cell is padded. |
| Recombiner.PipelineLabel | clams_processing.py:41 | End to end, a subject whose export stem holds no id keeps its id through the three renamings. Its row in every combined table is labelled `ID<subject id>`. |

## Left out

- File and directory I/O, not modelled. This covers reading and writing CSV files, `os.listdir`/`glob` order, directory creation and the `print` calls. The file list is a parameter in listing order. CSV parsing, the 22-line preamble skip and `pd.to_datetime` are replaced by pre-parsed rows with `Option<int>` timestamps.
- The batch loops of the trimmer and the binner (lines 83-87, 217-229), not modelled: they only call the modelled per-file functions. The cleaner's batch is modelled because its output-directory guard decides the whole batch.
- Column dropping and reordering to the fixed output schema (lines 130-132, 197-200): schema plumbing. The model keeps only the columns the later stages read.
- Missing columns, not modelled. The source raises `KeyError` when a table lacks a column it reads (`DATE/TIME` at lines 93 and 127, `LED LIGHTNESS` at lines 102 and 141, `XAMB` and `YAMB` at line 135, the columns aggregated at line 165). The `Row` record always holds every column the stages read, so such a failure cannot arise in the model and has no `Err` value.
- The means and the sums of `FEED1`: real arithmetic, not IEEE floating point. The four-decimal rounding of line 204 is not modelled.
- Missing values: pandas' `last`, `sum` and `mean` skip NaN. The model has no NaN cells, and `LED LIGHTNESS` is an integer, so a missing phase value is not modelled.
- `Binner.SortBy`: does not model the order among groups with equal `INTERVAL_start`, because pandas' default quicksort is not stable. The model sorts stably from first appearance.
- `Binner.Bin`: requires `bin_hours` to divide 24 and be positive. For such values, `12 / bin_hours` is an exact binary fraction, so the source's float floor division equals integer `label * bin_hours div 12`. For other values the float result is not modelled.
- `Binner.Bin`: requires every row to carry a timestamp. Line 127 calls `pd.to_datetime` without `errors='coerce'`: a blank cell becomes `NaT`, and text that does not parse as a date raises an error. The model covers neither case, because the binner's input is the trimmer's output. The trimmer's own parse (line 93) coerces bad text to `NaT`, the window filter of lines 111-112 compares with `NaT` as false and drops those rows, and `Trimmer.Trim` guarantees that every kept row has a timestamp.
- `Naming.ExtractId`: takes the digits of `ID(\d{4})` to be ASCII `0`-`9`. Python's `\d` on a `str` also matches the other Unicode decimal digits (Arabic-Indic, Devanagari, fullwidth and so on), so a name such as `ID١٢٣٤` yields an id in the source and none in the model.
- `Cleaner.CsvExports`: selects a path exactly when its last four characters lower-case (ASCII) to `.csv`. The source's `re.search(r"\.csv$", path, re.IGNORECASE)` also selects two kinds of path the model rejects. One ends in `.csv` followed by a final newline, because `$` also matches just before a trailing `\n`. The other spells the `s` as `ſ` (U+017F), which a case-insensitive Unicode match takes for `s`. Such file names are not modelled.
- `Text.Lower`: lower-cases ASCII letters only, not the full Unicode mapping of `str.lower`.
- `Naming.BinnedName`: applies both replacements of line 207 to the file name only. In the source they apply to the whole path, so a directory holding `Trimmed_CLAMS_data` or `.csv` is rewritten too, which is how the output lands in `Binned_CLAMS_data`. Neither pattern nor replacement holds a `/`, so no occurrence spans a `/`, and the file-name part of the source's result is what the model computes.
- The transpose-and-write block of lines 275-284 runs after every directory entry, not once. Only the final write survives, so the model computes the tables once over the whole listing.
- The per-phase labelling of a phase's rows follows the source's table order. The source does not sort by time, and neither does the model.

## Notes on the source

- `DAY` uses the per-phase label (lines 188-192). It is computed before `BIN` is overwritten with the global position.
- `BIN` is 0-based, although the comment on line 190 says it starts from 1.
- The trimmed table is selected from the whole table by timestamp (lines 111-112), not sliced from the anchor position. The window is closed at both ends, so a table sampled every hour with `keep_hours = 24` keeps 25 rows.
- Series of different lengths are padded by the outer join of `concat(axis=1)` (line 273), not truncated or rejected.
- The cleaning loop (lines 53-59) sits inside `if not os.path.exists(output_directory)` (line 50). An existing `Cleaned_CLAMS_data` directory therefore skips the whole batch, even when it is empty or holds only part of the files. The trimmer and the binner reprocess every file on each run.

=== FILE: binner.dfy ===
/** Stage 3, `bin_clams_data`: label the rows (see `Labelling`), collapse
    every `(LED LIGHTNESS, label)` group to one row, sort the groups by
    their first interval, and number them.

    `bin_hours` is an hour count dividing 24, as the pipeline's callers
    pass it; timestamps are seconds. */
module Binner {
  import opened Common
  import opened Table
  import opened Labelling

  /** The `groupby(['LED LIGHTNESS', 'BIN'])` key. */
  datatype Key = Key(led: int, phaseLabel: nat)

  /** One collapsed group, before the final numbering. */
  datatype Bucket = Bucket(
    led: int, phaseLabel: nat,
    chan: int,                            // last
    intervalStart: int, intervalEnd: int, // first / last INTERVAL
    timeStart: int, timeEnd: int,         // first / last DATE/TIME
    duration: real,                       // hours between them
    acco2: real, accco2: real, feed1Acc: real, wheelAcc: real, // last
    wheel: real, feed1: real, totAmb: real, // sums
    vo2: real, vco2: real, rer: real, heat: real, flow: real, pressure: real,
    enclosureTemp: real, setpoint: real   // means
  )

  /** One row of the binned table. `bin` is the global 0-based position
      after sorting; `day` comes from the group's own label. */
  datatype BinnedRow = BinnedRow(bucket: Bucket, day: int, bin: nat, dailyBin: nat)

  function KeyOf(b: Bucket): Key {
    Key(b.led, b.phaseLabel)
  }

  /** The counters summed per bin (line 159). */
  datatype Counter = Wheel | Feed1 | TotAmb

  /** The measures averaged per bin. */
  datatype Measure = Vo2 | Vco2 | Rer | Heat | Flow | Pressure | EnclosureTemp | Setpoint

  function CountOf(c: Counter, r: Row): real {
    match c
    case Wheel => r.wheel as real
    case Feed1 => r.feed1
    case TotAmb => (r.xamb + r.yamb) as real   // line 135
  }

  function MeasureOf(m: Measure, r: Row): real {
    match m
    case Vo2 => r.vo2
    case Vco2 => r.vco2
    case Rer => r.rer
    case Heat => r.heat
    case Flow => r.flow
    case Pressure => r.pressure
    case EnclosureTemp => r.enclosureTemp
    case Setpoint => r.setpoint
  }

  function BucketCount(c: Counter, b: Bucket): real {
    match c
    case Wheel => b.wheel
    case Feed1 => b.feed1
    case TotAmb => b.totAmb
  }

  function BucketMeasure(m: Measure, b: Bucket): real {
    match m
    case Vo2 => b.vo2
    case Vco2 => b.vco2
    case Rer => b.rer
    case Heat => b.heat
    case Flow => b.flow
    case Pressure => b.pressure
    case EnclosureTemp => b.enclosureTemp
    case Setpoint => b.setpoint
  }

  function Total(g: seq<Row>, c: Counter): real {
    if |g| == 0 then 0.0 else CountOf(c, g[0]) + Total(g[1..], c)
  }

  function MeasureSum(g: seq<Row>, m: Measure): real {
    if |g| == 0 then 0.0 else MeasureOf(m, g[0]) + MeasureSum(g[1..], m)
  }

  function Mean(g: seq<Row>, m: Measure): real
    requires |g| > 0
  {
    MeasureSum(g, m) / (|g| as real)
  }

  /** The key of every row: its phase and its label within that phase. */
  function RowKeys(rows: seq<Row>, binSecs: int): (keys: seq<Key>)
    requires AllTimed(rows)
    ensures |keys| == |rows|
    ensures forall i :: 0 <= i < |rows| ==> keys[i].led == rows[i].led
  {
    var labels := RowLabels(rows, binSecs);
    seq(|rows|, i requires 0 <= i < |rows| => Key(rows[i].led, labels[i]))
  }

  /** The distinct keys, in order of first appearance. */
  function Distinct(ks: seq<Key>): (d: seq<Key>)
    ensures forall k :: k in d <==> k in ks
    ensures forall i, j :: 0 <= i < j < |d| ==> d[i] != d[j]
    decreases |ks|
  {
    if |ks| == 0 then []
    else
      var n := |ks|;
      var d := Distinct(ks[..n - 1]);
      assert forall k :: k in ks <==> k in ks[..n - 1] || k == ks[n - 1] by {
        assert ks == ks[..n - 1] + [ks[n - 1]];
      }
      if ks[n - 1] in d then d else d + [ks[n - 1]]
  }

  /** The rows with key `k`, in table order. */
  function Group(rows: seq<Row>, keys: seq<Key>, k: Key): (g: seq<Row>)
    requires |keys| == |rows|
    ensures |g| > 0 <==> k in keys
    ensures forall r :: r in g ==> r in rows
    decreases |rows|
  {
    if |rows| == 0 then []
    else (if keys[0] == k then [rows[0]] else []) + Group(rows[1..], keys[1..], k)
  }

  /** Lines 156-182: one group collapsed to one row, carrying the group's
      key. When the group's timestamps are in order, its first and last
      times bound every row of it and the duration is not negative. */
  function Collapse(k: Key, g: seq<Row>): (b: Bucket)
    requires |g| > 0 && AllTimed(g)
    ensures KeyOf(b) == k
    ensures TimesNonDecreasing(g) ==> forall i :: 0 <= i < |g| ==> b.timeStart <= g[i].time.value <= b.timeEnd
    ensures TimesNonDecreasing(g) ==> b.duration >= 0.0
  {
    var first, last := g[0], g[|g| - 1];
    Bucket(
      k.led, k.phaseLabel, last.chan,
      first.interval, last.interval,
      first.time.value, last.time.value,
      (last.time.value - first.time.value) as real / SecondsPerHour as real,
      last.acco2, last.accco2, last.feed1Acc, last.wheelAcc,
      Total(g, Wheel), Total(g, Feed1), Total(g, TotAmb),
      Mean(g, Vo2), Mean(g, Vco2), Mean(g, Rer), Mean(g, Heat), Mean(g, Flow),
      Mean(g, Pressure), Mean(g, EnclosureTemp), Mean(g, Setpoint))
  }

  /** Grouping distributes over concatenation: the rows of `a + b` with
      key `k` are those of `a`, then those of `b`, each in table order. */
  lemma {:induction false} GroupAppend(a: seq<Row>, ka: seq<Key>, b: seq<Row>, kb: seq<Key>, k: Key)
    requires |ka| == |a| && |kb| == |b|
    ensures Group(a + b, ka + kb, k) == Group(a, ka, k) + Group(b, kb, k)
    decreases |a|
  {
    if |a| == 0 {
      assert a + b == b && ka + kb == kb;
    } else {
      assert (a + b)[0] == a[0] && (ka + kb)[0] == ka[0];
      assert (a + b)[1..] == a[1..] + b && (ka + kb)[1..] == ka[1..] + kb;
      GroupAppend(a[1..], ka[1..], b, kb, k);
    }
  }

  /** A single row forms the group of its own key and no other. */
  lemma GroupSingle(r: Row, key: Key, k: Key)
    ensures Group([r], [key], k) == if key == k then [r] else []
  {
    assert [r][1..] == [] && [key][1..] == [];
  }

  lemma GroupTimed(rows: seq<Row>, keys: seq<Key>, k: Key)
    requires |keys| == |rows| && AllTimed(rows)
    ensures AllTimed(Group(rows, keys, k))
  {
    var g := Group(rows, keys, k);
    forall i | 0 <= i < |g| ensures g[i].time.Some? {
      assert g[i] in g;
    }
  }

  /** The collapsed groups, one per key of `ks`, in the order of `ks`. */
  function Buckets(ks: seq<Key>, rows: seq<Row>, keys: seq<Key>): (bs: seq<Bucket>)
    requires |keys| == |rows| && AllTimed(rows)
    requires forall k :: k in ks ==> k in keys
    ensures |bs| == |ks|
    decreases |ks|
  {
    if |ks| == 0 then []
    else
      GroupTimed(rows, keys, ks[0]);
      [Collapse(ks[0], Group(rows, keys, ks[0]))] + Buckets(ks[1..], rows, keys)
  }

  lemma {:induction false} BucketAt(ks: seq<Key>, rows: seq<Row>, keys: seq<Key>, m: nat)
    requires |keys| == |rows| && AllTimed(rows)
    requires forall k :: k in ks ==> k in keys
    requires m < |ks|
    ensures |Group(rows, keys, ks[m])| > 0 && AllTimed(Group(rows, keys, ks[m]))
    ensures Buckets(ks, rows, keys)[m] == Collapse(ks[m], Group(rows, keys, ks[m]))
    decreases m
  {
    GroupTimed(rows, keys, ks[m]);
    BucketsHead(ks, rows, keys);
    if m > 0 {
      assert forall k :: k in ks[1..] ==> k in ks;
      BucketAt(ks[1..], rows, keys, m - 1);
    }
  }

  lemma BucketsHead(ks: seq<Key>, rows: seq<Row>, keys: seq<Key>)
    requires |keys| == |rows| && AllTimed(rows)
    requires forall k :: k in ks ==> k in keys
    requires |ks| > 0
    ensures |Group(rows, keys, ks[0])| > 0 && AllTimed(Group(rows, keys, ks[0]))
    ensures Buckets(ks, rows, keys) == [Collapse(ks[0], Group(rows, keys, ks[0]))] + Buckets(ks[1..], rows, keys)
  {
    GroupTimed(rows, keys, ks[0]);
  }

  function StartOf(b: Bucket): int { b.intervalStart }

  predicate SortedBy<T>(s: seq<T>, key: T -> int) {
    forall i, j :: 0 <= i < j < |s| ==> key(s[i]) <= key(s[j])
  }

  predicate DistinctKeys(bs: seq<Bucket>) {
    forall i, j :: 0 <= i < j < |bs| ==> KeyOf(bs[i]) != KeyOf(bs[j])
  }

  /** Insert `b` before the first element whose key is not smaller. */
  function Insert<T>(b: T, s: seq<T>, key: T -> int): (r: seq<T>)
    requires SortedBy(s, key)
    ensures SortedBy(r, key)
    ensures multiset(r) == multiset(s) + multiset{b}
    ensures |r| == |s| + 1
  {
    if |s| == 0 then [b]
    else if key(b) <= key(s[0]) then [b] + s
    else
      var rest := Insert(b, s[1..], key);
      assert s == [s[0]] + s[1..];
      LowerBoundOfInsert(b, s, rest, key);
      ConsSorted(s[0], rest, key);
      [s[0]] + rest
  }

  /** Every element of the insertion into the tail is at least the head. */
  lemma LowerBoundOfInsert<T>(b: T, s: seq<T>, rest: seq<T>, key: T -> int)
    requires |s| > 0 && SortedBy(s, key) && key(s[0]) < key(b)
    requires multiset(rest) == multiset(s[1..]) + multiset{b}
    ensures forall k :: 0 <= k < |rest| ==> key(s[0]) <= key(rest[k])
  {
    forall k | 0 <= k < |rest| ensures key(s[0]) <= key(rest[k]) {
      assert rest[k] in multiset(rest);
      if rest[k] != b {
        assert rest[k] in s[1..];
      }
    }
  }

  /** A sorted sequence stays sorted under a head no larger than its elements. */
  lemma ConsSorted<T>(x: T, rest: seq<T>, key: T -> int)
    requires SortedBy(rest, key) && forall k :: 0 <= k < |rest| ==> key(x) <= key(rest[k])
    ensures SortedBy([x] + rest, key)
  {
    var r := [x] + rest;
    forall i, j | 0 <= i < j < |r| ensures key(r[i]) <= key(r[j]) {
      assert r[j] == rest[j - 1];
      if i > 0 {
        assert r[i] == rest[i - 1];
      }
    }
  }

  /** A stable insertion sort: among equal keys the earlier element stays
      first. */
  function SortBy<T>(s: seq<T>, key: T -> int): (r: seq<T>)
    ensures SortedBy(r, key)
    ensures multiset(r) == multiset(s)
    ensures |r| == |s|
  {
    if |s| == 0 then []
    else
      assert s == [s[0]] + s[1..];
      Insert(s[0], SortBy(s[1..], key), key)
  }

  lemma {:induction false} InsertDistinct(b: Bucket, bs: seq<Bucket>)
    requires SortedBy(bs, StartOf) && DistinctKeys(bs)
    requires forall x :: x in bs ==> KeyOf(x) != KeyOf(b)
    ensures DistinctKeys(Insert(b, bs, StartOf))
    decreases |bs|
  {
    if |bs| > 0 && b.intervalStart > bs[0].intervalStart {
      InsertDistinct(b, bs[1..]);
      var rest := Insert(b, bs[1..], StartOf);
      forall x | x in rest ensures KeyOf(x) != KeyOf(bs[0]) {
        assert x in multiset(rest);
        if x != b {
          assert x in bs[1..];
        }
      }
    }
  }

  lemma {:induction false} SortDistinct(bs: seq<Bucket>)
    requires DistinctKeys(bs)
    ensures DistinctKeys(SortBy(bs, StartOf))
    decreases |bs|
  {
    if |bs| > 0 {
      SortDistinct(bs[1..]);
      var s := SortBy(bs[1..], StartOf);
      forall x | x in s ensures KeyOf(x) != KeyOf(bs[0]) {
        assert x in multiset(s);
        assert x in bs[1..];
      }
      InsertDistinct(bs[0], s);
    }
  }

  /** Lines 185-195: number the sorted groups. `DAY` is taken from the
      group's per-phase label before `BIN` is overwritten; `12 / bin_hours`
      is an exact float for every divisor of 24, so the floor division is
      `label * bin_hours div 12`. */
  function Number(sorted: seq<Bucket>, binHours: int): (out: seq<BinnedRow>)
    requires 0 < binHours <= 24
    ensures |out| == |sorted|
    ensures forall i :: 0 <= i < |out| ==> out[i].bucket == sorted[i]
    ensures forall i :: 0 <= i < |out| ==>
      && out[i].bin == i
      && out[i].dailyBin == i % (24 / binHours) < 24 / binHours
      && out[i].day == sorted[i].phaseLabel * binHours / 12 + 1 >= 1
  {
    var perDay := BinsPerDay(binHours);
    seq(|sorted|, i requires 0 <= i < |sorted| => BinnedRow(sorted[i], Day(sorted[i].phaseLabel, binHours), i, i % perDay))
  }

  /** Line 195's modulus: how many bins make a day. */
  function BinsPerDay(binHours: int): (n: int)
    requires 0 < binHours <= 24
    ensures n == 24 / binHours && n >= 1
  {
    assert 24 / binHours >= 24 / 24 by {
      DivMonotone(binHours, 24);
    }
    24 / binHours
  }

  /** Line 188: the day a group falls in, counted from 1. */
  function Day(phaseLabel: nat, binHours: int): (d: int)
    requires binHours > 0
    ensures d == phaseLabel * binHours / 12 + 1 && d >= 1
  {
    assert phaseLabel * binHours >= 0;
    phaseLabel * binHours / 12 + 1
  }

  /** `DAILY_BIN` numbers the bins within a day: it equals `BIN` for the
      first `24 div bin_hours` bins, and then repeats with that period. */
  lemma DailyBinCycles(sorted: seq<Bucket>, binHours: int, i: nat)
    requires 0 < binHours <= 24
    requires i < |sorted|
    ensures var out := Number(sorted, binHours);
      && (i < 24 / binHours ==> out[i].dailyBin == out[i].bin)
      && (i + 24 / binHours < |out| ==> out[i + 24 / binHours].dailyBin == out[i].dailyBin)
  {
    var n := BinsPerDay(binHours);
    ModPeriodic(i, n);
  }

  lemma ModPeriodic(i: nat, n: int)
    requires n > 0
    ensures i < n ==> i % n == i
    ensures (i + n) % n == i % n
  {
    var q, m := i / n, i % n;
    assert i == q * n + m && 0 <= m < n;
    assert (q + 1) * n == q * n + n;
    ModUnique(i + n, n, q + 1, m);
    if i < n {
      ModUnique(i, n, 0, i);
    }
  }

  /** The remainder is determined by any quotient-remainder decomposition. */
  lemma ModUnique(x: int, n: int, q: int, m: int)
    requires n > 0 && 0 <= m < n && x == q * n + m
    ensures x % n == m
  {
    var q', m' := x / n, x % n;
    assert x == q' * n + m' && 0 <= m' < n;
    assert (q - q') * n == m' - m;
    ProductBound(q - q', n);
  }

  /** A non-zero multiple of `n` is at least `n` away from zero. */
  lemma ProductBound(d: int, n: int)
    requires n > 0
    ensures d >= 1 ==> d * n >= n
    ensures d <= -1 ==> d * n <= -n
  {
    if d >= 1 {
      assert d * n == (d - 1) * n + n;
      assert (d - 1) * n >= 0;
    } else if d <= -1 {
      assert d * n == -((-d - 1) * n) - n;
      assert (-d - 1) * n >= 0;
    }
  }

  /** Dividing 24 by a smaller divisor gives no smaller quotient. */
  lemma DivMonotone(a: int, b: int)
    requires 0 < a <= b
    ensures 24 / a >= 24 / b
  {
    var qa, qb := 24 / a, 24 / b;
    assert qb * b <= 24;
    assert qb * a <= qb * b;
    assert 24 - qb * a >= 0;
  }

  lemma BucketKeysDistinct(ks: seq<Key>, rows: seq<Row>, keys: seq<Key>)
    requires |keys| == |rows| && AllTimed(rows)
    requires forall k :: k in ks ==> k in keys
    requires forall i, j :: 0 <= i < j < |ks| ==> ks[i] != ks[j]
    ensures DistinctKeys(Buckets(ks, rows, keys))
    ensures forall m :: 0 <= m < |ks| ==> KeyOf(Buckets(ks, rows, keys)[m]) == ks[m]
  {
    forall m | 0 <= m < |ks| ensures KeyOf(Buckets(ks, rows, keys)[m]) == ks[m] {
      BucketAt(ks, rows, keys, m);
    }
  }

  /** Every bin size the pipeline accepts is at most a day long. */
  lemma DivisorOf24(b: int)
    requires b > 0 && 24 % b == 0
    ensures b <= 24 && 24 / b >= 1
  {
    var q := 24 / b;
    assert q * b == 24;
    assert q >= 1;
    assert b <= q * b;
  }

  /** Lines 156-182: every `(LED LIGHTNESS, label)` group collapsed. The
      groups are listed in order of first appearance; pandas lists them in
      key order instead. Only the final sort's order among groups with equal
      `INTERVAL_start` depends on this choice. */
  function Collapsed(rows: seq<Row>, binSecs: int): (bs: seq<Bucket>)
    requires AllTimed(rows)
    ensures DistinctKeys(bs)
    ensures |bs| == |Distinct(RowKeys(rows, binSecs))|
  {
    var keys := RowKeys(rows, binSecs);
    var ks := Distinct(keys);
    BucketKeysDistinct(ks, rows, keys);
    Buckets(ks, rows, keys)
  }

  /** `bin_clams_data` on one trimmed table. */
  function Bin(rows: seq<Row>, binHours: int): (out: seq<BinnedRow>)
    requires binHours > 0 && 24 % binHours == 0
    requires AllTimed(rows)
    ensures |out| == |Distinct(RowKeys(rows, binHours * SecondsPerHour))|
    ensures forall i :: 0 <= i < |out| ==>
      && out[i].bin == i
      && out[i].dailyBin == i % (24 / binHours) < 24 / binHours
      && out[i].day == out[i].bucket.phaseLabel * binHours / 12 + 1 >= 1
    ensures forall i, j :: 0 <= i < j < |out| ==> out[i].bucket.intervalStart <= out[j].bucket.intervalStart
    ensures forall i, j :: 0 <= i < j < |out| ==> KeyOf(out[i].bucket) != KeyOf(out[j].bucket)
  {
    var bs := Collapsed(rows, binHours * SecondsPerHour);
    SortDistinct(bs);
    DivisorOf24(binHours);
    var sorted := SortBy(bs, StartOf);
    StartsAscending(sorted);
    Number(sorted, binHours)
  }

  /** Sorted by `StartOf`, read as a property of the buckets. */
  lemma StartsAscending(s: seq<Bucket>)
    requires SortedBy(s, StartOf)
    ensures forall i, j :: 0 <= i < j < |s| ==> s[i].intervalStart <= s[j].intervalStart
  {
    forall i, j | 0 <= i < j < |s| ensures s[i].intervalStart <= s[j].intervalStart {
      assert StartOf(s[i]) <= StartOf(s[j]);
    }
  }

  /** What collapsing a group keeps of it. */
  lemma CollapseFields(k: Key, g: seq<Row>)
    requires |g| > 0 && AllTimed(g)
    ensures var b := Collapse(k, g);
      && KeyOf(b) == k
      && b.chan == g[|g| - 1].chan
      && b.intervalStart == g[0].interval && b.intervalEnd == g[|g| - 1].interval
      && b.timeStart == g[0].time.value && b.timeEnd == g[|g| - 1].time.value
      && b.duration == (b.timeEnd - b.timeStart) as real / 3600.0
      && b.acco2 == g[|g| - 1].acco2 && b.accco2 == g[|g| - 1].accco2
      && b.feed1Acc == g[|g| - 1].feed1Acc && b.wheelAcc == g[|g| - 1].wheelAcc
      && (forall c :: BucketCount(c, b) == Total(g, c))
      && (forall m :: BucketMeasure(m, b) == Mean(g, m))
  {
  }

  /** Each output row is the collapse of the nonempty group of input rows
      sharing its key. */
  lemma BinRowIsCollapse(rows: seq<Row>, binHours: int, i: nat)
    requires binHours > 0 && 24 % binHours == 0 && AllTimed(rows)
    requires i < |Bin(rows, binHours)|
    ensures var keys := RowKeys(rows, binHours * SecondsPerHour);
      var b := Bin(rows, binHours)[i].bucket;
      var g := Group(rows, keys, KeyOf(b));
      && KeyOf(b) in keys && |g| > 0 && AllTimed(g)
      && b == Collapse(KeyOf(b), g)
  {
    var keys := RowKeys(rows, binHours * SecondsPerHour);
    var ks := Distinct(keys);
    var bs := Collapsed(rows, binHours * SecondsPerHour);
    var sorted := SortBy(bs, StartOf);
    DivisorOf24(binHours);
    assert Bin(rows, binHours)[i].bucket == sorted[i];
    assert sorted[i] in multiset(bs);
    var m :| 0 <= m < |bs| && bs[m] == sorted[i];
    BucketAt(ks, rows, keys, m);
    CollapseFields(ks[m], Group(rows, keys, ks[m]));
  }

  /** Lines 156-182 as a property of the output: each output row holds the
      last `CHAN` and accumulators, the first and last `INTERVAL` and
      `DATE/TIME`, the duration between them in hours, the summed counters
      and the averaged measures of the input rows sharing its key. */
  lemma BinIsCollapsedGroup(rows: seq<Row>, binHours: int, i: nat)
    requires binHours > 0 && 24 % binHours == 0 && AllTimed(rows)
    requires i < |Bin(rows, binHours)|
    ensures var keys := RowKeys(rows, binHours * SecondsPerHour);
      var b := Bin(rows, binHours)[i].bucket;
      var g := Group(rows, keys, KeyOf(b));
      && KeyOf(b) in keys && |g| > 0 && AllTimed(g)
      && b.chan == g[|g| - 1].chan
      && b.intervalStart == g[0].interval && b.intervalEnd == g[|g| - 1].interval
      && b.timeStart == g[0].time.value && b.timeEnd == g[|g| - 1].time.value
      && b.duration == (b.timeEnd - b.timeStart) as real / 3600.0
      && b.acco2 == g[|g| - 1].acco2 && b.accco2 == g[|g| - 1].accco2
      && b.feed1Acc == g[|g| - 1].feed1Acc && b.wheelAcc == g[|g| - 1].wheelAcc
      && (forall c :: BucketCount(c, b) == Total(g, c))
      && (forall m :: BucketMeasure(m, b) == Mean(g, m))
  {
    var keys := RowKeys(rows, binHours * SecondsPerHour);
    var b := Bin(rows, binHours)[i].bucket;
    BinRowIsCollapse(rows, binHours, i);
    CollapseFields(KeyOf(b), Group(rows, keys, KeyOf(b)));
  }

  /** Every row lands in exactly one output row: the one carrying its
      phase and label. */
  lemma BinCoversEveryRow(rows: seq<Row>, binHours: int, r: nat)
    requires binHours > 0 && 24 % binHours == 0 && AllTimed(rows)
    requires r < |rows|
    ensures var key := RowKeys(rows, binHours * SecondsPerHour)[r];
      var out := Bin(rows, binHours);
      exists i :: 0 <= i < |out| && KeyOf(out[i].bucket) == key
        && forall j :: 0 <= j < |out| && KeyOf(out[j].bucket) == key ==> j == i
  {
    var out := Bin(rows, binHours);
    var i := BinWithKey(rows, binHours, r);
    assert forall j :: 0 <= j < |out| && j != i ==> KeyOf(out[j].bucket) != KeyOf(out[i].bucket);
  }

  /** The position of the output row carrying row `r`'s key. */
  lemma BinWithKey(rows: seq<Row>, binHours: int, r: nat) returns (i: nat)
    requires binHours > 0 && 24 % binHours == 0 && AllTimed(rows)
    requires r < |rows|
    ensures i < |Bin(rows, binHours)|
    ensures KeyOf(Bin(rows, binHours)[i].bucket) == RowKeys(rows, binHours * SecondsPerHour)[r]
  {
    var binSecs := binHours * SecondsPerHour;
    var bs := Collapsed(rows, binSecs);
    var m := CollapsedWithKey(rows, binSecs, r);
    i := SortedPosition(bs, StartOf, m);
    BinBuckets(rows, binHours);
  }

  /** The position of the collapsed group carrying row `r`'s key. */
  lemma CollapsedWithKey(rows: seq<Row>, binSecs: int, r: nat) returns (m: nat)
    requires AllTimed(rows) && r < |rows|
    ensures m < |Collapsed(rows, binSecs)|
    ensures KeyOf(Collapsed(rows, binSecs)[m]) == RowKeys(rows, binSecs)[r]
  {
    var keys := RowKeys(rows, binSecs);
    var ks := Distinct(keys);
    assert keys[r] in ks;
    m :| 0 <= m < |ks| && ks[m] == keys[r];
    BucketKeysDistinct(ks, rows, keys);
  }

  /** Where element `m` ends up after sorting. */
  lemma SortedPosition<T>(s: seq<T>, key: T -> int, m: nat) returns (i: nat)
    requires m < |s|
    ensures i < |SortBy(s, key)| && SortBy(s, key)[i] == s[m]
  {
    var sorted := SortBy(s, key);
    assert s[m] in multiset(sorted);
    i :| 0 <= i < |sorted| && sorted[i] == s[m];
  }

  /** The buckets of the binned table are the collapsed groups in sorted order. */
  lemma BinBuckets(rows: seq<Row>, binHours: int)
    requires binHours > 0 && 24 % binHours == 0 && AllTimed(rows)
    ensures var sorted := SortBy(Collapsed(rows, binHours * SecondsPerHour), StartOf);
      var out := Bin(rows, binHours);
      |out| == |sorted| && forall i :: 0 <= i < |out| ==> out[i].bucket == sorted[i]
  {
    DivisorOf24(binHours);
  }

  /** Sum of one counter down a binned table. */
  function BinTotal(out: seq<BinnedRow>, c: Counter): real {
    if |out| == 0 then 0.0 else BucketCount(c, out[0].bucket) + BinTotal(out[1..], c)
  }

  function BucketsTotal(bs: seq<Bucket>, c: Counter): real {
    if |bs| == 0 then 0.0 else BucketCount(c, bs[0]) + BucketsTotal(bs[1..], c)
  }

  /** The per-key group totals, one per key of `ks`. */
  function GroupTotals(ks: seq<Key>, rows: seq<Row>, keys: seq<Key>, c: Counter): real
    requires |keys| == |rows|
  {
    if |ks| == 0 then 0.0 else Total(Group(rows, keys, ks[0]), c) + GroupTotals(ks[1..], rows, keys, c)
  }

  lemma {:induction false} NumberTotal(out: seq<BinnedRow>, bs: seq<Bucket>, c: Counter)
    requires |out| == |bs| && forall k :: 0 <= k < |out| ==> out[k].bucket == bs[k]
    ensures BinTotal(out, c) == BucketsTotal(bs, c)
    decreases |out|
  {
    if |out| > 0 {
      NumberTotal(out[1..], bs[1..], c);
    }
  }

  lemma {:induction false} InsertTotal(b: Bucket, bs: seq<Bucket>, c: Counter)
    requires SortedBy(bs, StartOf)
    ensures BucketsTotal(Insert(b, bs, StartOf), c) == BucketCount(c, b) + BucketsTotal(bs, c)
    decreases |bs|
  {
    if |bs| > 0 && StartOf(b) > StartOf(bs[0]) {
      InsertTotal(b, bs[1..], c);
      var r := Insert(b, bs, StartOf);
      assert r[1..] == Insert(b, bs[1..], StartOf);
    } else if |bs| > 0 {
      var r := Insert(b, bs, StartOf);
      assert r[1..] == bs;
    }
  }

  /** Sorting moves buckets but loses or adds none. */
  lemma {:induction false} SortTotal(bs: seq<Bucket>, c: Counter)
    ensures BucketsTotal(SortBy(bs, StartOf), c) == BucketsTotal(bs, c)
    decreases |bs|
  {
    if |bs| > 0 {
      SortTotal(bs[1..], c);
      InsertTotal(bs[0], SortBy(bs[1..], StartOf), c);
    }
  }

  lemma {:induction false} BucketsTotalIsGroupTotals(ks: seq<Key>, rows: seq<Row>, keys: seq<Key>, c: Counter)
    requires |keys| == |rows| && AllTimed(rows)
    requires forall k :: k in ks ==> k in keys
    ensures BucketsTotal(Buckets(ks, rows, keys), c) == GroupTotals(ks, rows, keys, c)
    decreases |ks|
  {
    if |ks| > 0 {
      BucketsTotalIsGroupTotals(ks[1..], rows, keys, c);
      var bs := Buckets(ks, rows, keys);
      assert bs[1..] == Buckets(ks[1..], rows, keys);
      assert BucketCount(c, bs[0]) == Total(Group(rows, keys, ks[0]), c);
    }
  }

  lemma {:induction false} GroupTotalsEmpty(ks: seq<Key>, c: Counter)
    ensures GroupTotals(ks, [], [], c) == 0.0
    decreases |ks|
  {
    if |ks| > 0 {
      GroupTotalsEmpty(ks[1..], c);
    }
  }

  /** Peeling the first row off the table: it contributes to the group of
      its own key only. */
  lemma {:induction false} GroupTotalsStep(ks: seq<Key>, rows: seq<Row>, keys: seq<Key>, c: Counter)
    requires |keys| == |rows| > 0
    requires forall i, j :: 0 <= i < j < |ks| ==> ks[i] != ks[j]
    ensures GroupTotals(ks, rows, keys, c)
         == (if keys[0] in ks then CountOf(c, rows[0]) else 0.0) + GroupTotals(ks, rows[1..], keys[1..], c)
    decreases |ks|
  {
    if |ks| > 0 {
      GroupTotalsStep(ks[1..], rows, keys, c);
      var g := Group(rows, keys, ks[0]);
      var rest := Group(rows[1..], keys[1..], ks[0]);
      if keys[0] == ks[0] {
        assert g == [rows[0]] + rest;
        assert g[1..] == rest;
        assert keys[0] !in ks[1..];
      } else {
        assert g == rest;
        assert keys[0] in ks <==> keys[0] in ks[1..];
      }
    }
  }

  /** The groups partition the table, so their totals add up to the
      table's total. */
  lemma {:induction false} PartitionTotal(ks: seq<Key>, rows: seq<Row>, keys: seq<Key>, c: Counter)
    requires |keys| == |rows|
    requires forall i, j :: 0 <= i < j < |ks| ==> ks[i] != ks[j]
    requires forall i :: 0 <= i < |keys| ==> keys[i] in ks
    ensures GroupTotals(ks, rows, keys, c) == Total(rows, c)
    decreases |rows|
  {
    if |rows| == 0 {
      GroupTotalsEmpty(ks, c);
      assert rows == [] && keys == [];
    } else {
      GroupTotalsStep(ks, rows, keys, c);
      PartitionTotal(ks, rows[1..], keys[1..], c);
    }
  }

  /** Binning conserves every summed counter: the wheel turns, feed and
      ambulatory counts of the binned table add up to those of the
      trimmed table. */
  lemma BinConservesTotals(rows: seq<Row>, binHours: int, c: Counter)
    requires binHours > 0 && 24 % binHours == 0 && AllTimed(rows)
    ensures BinTotal(Bin(rows, binHours), c) == Total(rows, c)
  {
    var keys := RowKeys(rows, binHours * SecondsPerHour);
    var ks := Distinct(keys);
    var bs := Collapsed(rows, binHours * SecondsPerHour);
    var sorted := SortBy(bs, StartOf);
    DivisorOf24(binHours);
    NumberTotal(Bin(rows, binHours), sorted, c);
    SortTotal(bs, c);
    BucketsTotalIsGroupTotals(ks, rows, keys, c);
    PartitionTotal(ks, rows, keys, c);
  }
}

=== FILE: cleaner.dfy ===
/** Stage 1, `clean_file`: read the subject id from the export's header
    block, drop the two formatting rows under the column header, and name
    the result after the subject.

    The header lines are the file's text lines; `rows` are the data rows
    as parsed below the preamble (the CSV parsing itself is not modelled),
    of any row type. */
module Cleaner {
  import opened Common
  import opened Text
  import opened Naming

  const SubjectIdKey: string := "Subject ID"

  datatype CleanedFile<R> = CleanedFile(name: string, rows: seq<R>)

  /** Position of the first line containing `key` (the loop with `break`). */
  function FirstLineWith(lines: seq<string>, key: string): (r: Option<nat>)
    ensures r.Some? ==> r.value < |lines| && Contains(lines[r.value], key)
                        && forall j :: 0 <= j < r.value ==> !Contains(lines[j], key)
    ensures r.None? ==> forall j :: 0 <= j < |lines| ==> !Contains(lines[j], key)
  {
    if |lines| == 0 then None
    else if Contains(lines[0], key) then Some(0)
    else
      match FirstLineWith(lines[1..], key)
      case None => None
      case Some(k) => Some(k + 1)
  }

  /** The subject id: the second comma-separated field, stripped, of the
      first header line that mentions "Subject ID". */
  function SubjectId(lines: seq<string>): (r: Result<string>)
    ensures r == Err(NoSubjectIdLine) <==> forall j :: 0 <= j < |lines| ==> !Contains(lines[j], SubjectIdKey)
    ensures r.Ok? ==> exists k ::
      && 0 <= k < |lines| && Contains(lines[k], SubjectIdKey)
      && (forall j :: 0 <= j < k ==> !Contains(lines[j], SubjectIdKey))
      && |Split(lines[k], ',')| >= 2 && r.value == Strip(Split(lines[k], ',')[1])
    ensures r == Err(NoSecondField) ==> exists k ::
      && 0 <= k < |lines| && Contains(lines[k], SubjectIdKey)
      && (forall j :: 0 <= j < k ==> !Contains(lines[j], SubjectIdKey))
      && ',' !in lines[k]
    ensures r.Err? ==> r.failure in {NoSubjectIdLine, NoSecondField}
    ensures r.Ok? ==> ',' !in r.value
  {
    match FirstLineWith(lines, SubjectIdKey)
    case None => Err(NoSubjectIdLine)
    case Some(k) =>
      var fields := Split(lines[k], ',');
      if |fields| < 2 then
        JoinSplit(lines[k], ',');
        Err(NoSecondField)
      else Ok(Strip(fields[1]))
  }

  /** A header line written as comma-separated fields, whose second field
      is the id padded with blanks, yields that id. */
  lemma SubjectIdFromHeader(lines: seq<string>, k: nat, fields: seq<string>, pre: string, id: string, post: string)
    requires k < |lines| && forall j :: 0 <= j < k ==> !Contains(lines[j], SubjectIdKey)
    requires |fields| >= 2 && forall f :: 0 <= f < |fields| ==> ',' !in fields[f]
    requires Contains(fields[0], SubjectIdKey)
    requires fields[1] == pre + id + post && AllSpace(pre) && AllSpace(post)
    requires |id| > 0 ==> !IsSpace(id[0]) && !IsSpace(id[|id| - 1])
    requires lines[k] == Join(fields, ',')
    ensures SubjectId(lines) == Ok(id)
  {
    JoinedHeaderHasKey(fields);
    FirstLineWithIs(lines, SubjectIdKey, k);
    SplitJoin(fields, ',');
    StripSurrounded(pre, id, post);
  }

  /** The key found in the first field is found in the joined line. */
  lemma JoinedHeaderHasKey(fields: seq<string>)
    requires |fields| >= 2 && Contains(fields[0], SubjectIdKey)
    ensures Contains(Join(fields, ','), SubjectIdKey)
  {
    var line := Join(fields, ',');
    assert line == fields[0] + [','] + Join(fields[1..], ',');
    var i :| 0 <= i <= |fields[0]| && OccursAt(fields[0], SubjectIdKey, i);
    assert line[i..i + |SubjectIdKey|] == fields[0][i..i + |SubjectIdKey|];
    assert OccursAt(line, SubjectIdKey, i);
  }

  /** The search stops at the first line holding the key. */
  lemma FirstLineWithIs(lines: seq<string>, key: string, k: nat)
    requires k < |lines| && Contains(lines[k], key)
    requires forall j :: 0 <= j < k ==> !Contains(lines[j], key)
    ensures FirstLineWith(lines, key) == Some(k)
  {
  }

  /** `clean_file` on one export found at `path`. The failures come in
      the source's order: a header line without a second field fails while
      the id is read (line 28), fewer than two data rows fail at the drop
      (line 35), and a missing "Subject ID" line only when the name is
      built (line 41). */
  function CleanFile<R>(path: string, lines: seq<string>, rows: seq<R>): (r: Result<CleanedFile<R>>)
    ensures r.Ok? <==> SubjectId(lines).Ok? && |rows| >= 2
    ensures SubjectId(lines) == Err(NoSecondField) ==> r == Err(NoSecondField)
    ensures SubjectId(lines) != Err(NoSecondField) && |rows| < 2 ==> r == Err(MissingFormattingRows)
    ensures SubjectId(lines) == Err(NoSubjectIdLine) && |rows| >= 2 ==> r == Err(NoSubjectIdLine)
    ensures r.Ok? ==> rows == rows[..2] + r.value.rows
    ensures r.Ok? ==> r.value.name == CleanedName(path, SubjectId(lines).value)
  {
    var sid := SubjectId(lines);
    if sid == Err(NoSecondField) then Err(NoSecondField)
    else if |rows| < 2 then Err(MissingFormattingRows)
    else if sid.Err? then Err(sid.failure)
    else
      assert rows == rows[..2] + rows[2..];
      Ok(CleanedFile(CleanedName(path, sid.value), rows[2..]))
  }

  lemma CleanedNameShape(path: string, id: string)
    ensures var parts := SplitExt(Basename(path)); var name := CleanedName(path, id);
      && name[..|parts.0|] == parts.0
      && OccursAt(name, "_ID" + id, |parts.0|)
      && EndsWith(name, Lower(parts.1))
  {
    var parts := SplitExt(Basename(path));
    JoinedNameShape(parts.0, id, Lower(parts.1));
  }

  lemma JoinedNameShape(stem: string, id: string, ext: string)
    ensures var name := stem + "_ID" + id + ext;
      name[..|stem|] == stem && OccursAt(name, "_ID" + id, |stem|) && EndsWith(name, ext)
  {
    var name := stem + "_ID" + id + ext;
    assert name[..|stem|] == stem;
    assert name[|stem|..|stem| + |"_ID" + id|] == "_ID" + id;
    assert name[|name| - |ext|..] == ext;
  }

  /** One file of the input directory: its path, text lines and data rows. */
  datatype Export<R> = Export(path: string, lines: seq<string>, rows: seq<R>)

  /** Line 54: the path ends in `.csv`, in any letter case. */
  predicate IsCsvPath(path: string) {
    |path| >= 4 && Lower(path[|path| - 4..]) == ".csv"
  }

  /** Line 56: the exports whose path matches, in listing order. */
  function CsvExports<R(!new)>(exports: seq<Export<R>>): (r: seq<Export<R>>)
    ensures forall e :: e in r <==> e in exports && IsCsvPath(e.path)
    ensures |r| <= |exports|
  {
    if |exports| == 0 then []
    else
      var rest := CsvExports(exports[1..]);
      assert forall e :: e in exports <==> e == exports[0] || e in exports[1..] by {
        assert exports == [exports[0]] + exports[1..];
      }
      if IsCsvPath(exports[0].path) then [exports[0]] + rest else rest
  }

  function CleanExport<R>(e: Export<R>): Result<CleanedFile<R>> {
    CleanFile(e.path, e.lines, e.rows)
  }

  /** What a run of `f` over several files yields: all results, in order,
      when every call succeeds; otherwise the failure of the first file
      that fails, which ends the run. */
  ghost predicate RunOutcome<X, T>(xs: seq<X>, f: X -> Result<T>, r: Result<seq<T>>) {
    && (r.Ok? <==> forall k :: 0 <= k < |xs| ==> f(xs[k]).Ok?)
    && (r.Ok? ==> |r.value| == |xs| && forall k :: 0 <= k < |xs| ==> r.value[k] == f(xs[k]).value)
    && (r.Err? ==> exists k :: 0 <= k < |xs| && f(xs[k]) == Err(r.failure)
                               && forall j :: 0 <= j < k ==> f(xs[j]).Ok?)
  }

  /** A run of `f` over several files, stopping at the first failure. */
  function RunEach<X, T>(xs: seq<X>, f: X -> Result<T>): (r: Result<seq<T>>)
    ensures RunOutcome(xs, f, r)
  {
    if |xs| == 0 then Ok([])
    else
      match f(xs[0])
      case Err(e) => Err(e)
      case Ok(x) =>
        var rest := RunEach(xs[1..], f);
        assert forall k :: 1 <= k < |xs| ==> xs[k] == xs[1..][k - 1];
        match rest
        case Err(e) =>
          var k :| 0 <= k < |xs[1..]| && f(xs[1..][k]) == Err(e) && forall j :: 0 <= j < k ==> f(xs[1..][j]).Ok?;
          assert f(xs[k + 1]) == Err(e);
          Err(e)
        case Ok(ys) => Ok([x] + ys)
  }

  /** Lines 48-59: the batch. The cleaning loop sits inside the `if` that
      creates the output directory, so an existing output directory skips
      the whole batch. Otherwise every `.csv` export is cleaned in listing
      order, and the first file that fails stops the batch with its failure. */
  function CleanAll<R(!new)>(outputExists: bool, exports: seq<Export<R>>): (r: Result<seq<CleanedFile<R>>>)
    ensures outputExists ==> r == Ok([])
    ensures !outputExists ==> RunOutcome(CsvExports(exports), CleanExport, r)
  {
    if outputExists then Ok([]) else RunEach(CsvExports(exports), CleanExport)
  }

  lemma HeaderOf1234()
    ensures SubjectId(["Subject ID,1234"]) == Ok("1234")
  {
    assert Join(["Subject ID", "1234"], ',') == "Subject ID,1234";
    assert OccursAt("Subject ID", SubjectIdKey, 0);
    assert "1234" == "" + "1234" + "";
    SubjectIdFromHeader(["Subject ID,1234"], 0, ["Subject ID", "1234"], "", "1234", "");
  }

  lemma CleanExportOf1234()
    ensures CleanExport(Export("a.csv", ["Subject ID,1234"], [0, 0, 7]))
         == Ok(CleanedFile(CleanedName("a.csv", "1234"), [7]))
  {
    HeaderOf1234();
    assert [0, 0, 7] == [0, 0] + [7];
    CleanFileOf(SubjectId(["Subject ID,1234"]), "a.csv", ["Subject ID,1234"], 0, 0, [7]);
  }

  /** An export whose id is found cleans to its rows after the first two. */
  lemma CleanFileOf<R>(sid: Result<string>, path: string, lines: seq<string>, a: R, b: R, rest: seq<R>)
    requires sid == SubjectId(lines) && sid.Ok?
    ensures CleanFile(path, lines, [a, b] + rest) == Ok(CleanedFile(CleanedName(path, sid.value), rest))
  {
    var rows := [a, b] + rest;
    assert rows[2..] == rest;
  }

  /** A run over one file is that file's outcome. */
  lemma RunEachSingle<X, T>(x: X, f: X -> Result<T>)
    requires f(x).Ok?
    ensures RunEach([x], f) == Ok([f(x).value])
  {
    var xs := [x];
    assert xs[0] == x && xs[1..] == [];
    assert RunEach(xs[1..], f) == Ok([]);
    assert [f(x).value] + [] == [f(x).value];
  }

  /** The output-directory guard decides the whole batch: a directory
      holding one `.csv` export that cleans without error yields nothing
      when the output directory exists, and that export's cleaned file
      when it does not. `CleanExportOf1234` exhibits such an export. */
  lemma OutputDirectoryGuard<R(!new)>(e: Export<R>)
    requires IsCsvPath(e.path) && CleanExport(e).Ok?
    ensures CleanAll(true, [e]) == Ok([])
    ensures CleanAll(false, [e]) == Ok([CleanExport(e).value])
  {
    CsvSingle(e);
    RunEachSingle(e, CleanExport);
  }

  /** Selecting the `.csv` exports distributes over concatenation, so the
      batch visits them in listing order. */
  lemma {:induction false} CsvExportsAppend<R(!new)>(a: seq<Export<R>>, b: seq<Export<R>>)
    ensures CsvExports(a + b) == CsvExports(a) + CsvExports(b)
    decreases |a|
  {
    if |a| == 0 {
      assert a + b == b;
    } else {
      assert (a + b)[1..] == a[1..] + b;
      CsvExportsAppend(a[1..], b);
    }
  }

  /** One export is selected exactly when its path ends in `.csv`. */
  lemma CsvSingle<R(!new)>(e: Export<R>)
    ensures CsvExports([e]) == if IsCsvPath(e.path) then [e] else []
  {
    assert [e][1..] == [];
  }
}

=== FILE: common.dfy ===
/** Shared result types of the CLAMS pipeline model.

    The Python pipeline reports failure by raising (IndexError,
    NameError) and never recovers; here the cleaner's and the trimmer's
    failures are values of `Failure`, carried by `Result`. A missing
    column (KeyError) cannot arise, since a row holds every column read. */
module Common {

  /** A value that may be missing: a coerced timestamp (`NaT`), the
      subject id that `extract_id_number` cannot find, a padded cell. */
  datatype Option<+T> = None | Some(value: T)

  /** Why one file of a stage could not be processed. */
  datatype Failure =
    | NoSubjectIdLine       // no header line contains "Subject ID": the name is never bound
    | NoSecondField         // the "Subject ID" line has no comma, so field [1] does not exist
    | MissingFormattingRows // the data has fewer than the two formatting rows to drop
    | EmptyTable            // the cleaned table has no first row to read a timestamp from
    | NoRowAfterCutoff      // no row has a timestamp at or after the acclimation cutoff
    | NoTransition          // no row after the cutoff leaves the reference light phase

  datatype Result<+T> = Ok(value: T) | Err(failure: Failure)
}

=== FILE: labelling.dfy ===
/** Bin labels of `bin_clams_data` (lines 140-153).

    For every distinct `LED LIGHTNESS` value, the rows in that phase are
    walked in table order; a new label is opened when a row's timestamp is
    at least `bin_hours` past the first timestamp of the current bin. The
    rows of one phase need not be contiguous in the table. */
module Labelling {
  import opened Table

  /** Labels given so far, and the first timestamp of the current bin. */
  datatype LabelState = LabelState(labels: seq<nat>, binStart: int)

  /** The walk over one phase's timestamps, one row at a time. */
  function Walk(times: seq<int>, binSecs: int): (s: LabelState)
    ensures |s.labels| == |times|
    ensures |times| > 0 && binSecs > 0 ==> s.labels[0] == 0
    decreases |times|
  {
    if |times| == 0 then LabelState([], 0)
    else
      var prev := Walk(times[..|times| - 1], binSecs);
      var t := times[|times| - 1];
      var current := if |times| == 1 then 0 else prev.labels[|times| - 2];
      var start := if |times| == 1 then times[0] else prev.binStart;
      if t - start >= binSecs then LabelState(prev.labels + [current + 1], t)
      else LabelState(prev.labels + [current], start)
  }

  function PhaseLabels(times: seq<int>, binSecs: int): seq<nat> {
    Walk(times, binSecs).labels
  }

  /** First position of the bin that holds position `k`. */
  function Opening(labels: seq<nat>, k: nat): (r: nat)
    requires k < |labels|
    ensures r <= k && labels[r] == labels[k]
  {
    if k == 0 || labels[k - 1] != labels[k] then k else Opening(labels, k - 1)
  }

  /** The rule for row `i > 0` of a phase: its label equals the previous
      one or is one more, and it is one more exactly when the row is at
      least `binSecs` past the first row of the previous row's bin. */
  predicate StepOk(times: seq<int>, binSecs: int, labels: seq<nat>, i: int)
    requires 0 < i < |labels| == |times|
  {
    && (labels[i] == labels[i - 1] || labels[i] == labels[i - 1] + 1)
    && (labels[i] == labels[i - 1] + 1 <==> times[i] - times[Opening(labels, i - 1)] >= binSecs)
  }

  /** What a correct labelling of one phase is, stated row by row: labels
      start at 0 and every later row follows the rule. */
  predicate IsPhaseLabelling(times: seq<int>, binSecs: int, labels: seq<nat>) {
    && |labels| == |times|
    && (|labels| > 0 ==> labels[0] == 0)
    && (forall i :: 0 < i < |labels| ==> StepOk(times, binSecs, labels, i))
  }

  /** The bin of a position depends only on the labels up to it. */
  lemma {:induction false} OpeningPrefix(l: seq<nat>, m: seq<nat>, k: nat)
    requires k < |l| <= |m| && l == m[..|l|]
    ensures Opening(m, k) == Opening(l, k)
    decreases k
  {
    assert m[k] == l[k];
    if k > 0 {
      assert m[k - 1] == l[k - 1];
      OpeningPrefix(l, m, k - 1);
    }
  }

  /** A correct labelling of all but the last row, extended by a last
      label that follows the rule, is a correct labelling. */
  lemma ExtendLabelling(times: seq<int>, binSecs: int, labels: seq<nat>)
    requires |times| == |labels| >= 2
    requires IsPhaseLabelling(times[..|times| - 1], binSecs, labels[..|labels| - 1])
    requires var n := |labels|; labels[n - 1] == labels[n - 2] || labels[n - 1] == labels[n - 2] + 1
    requires var n := |labels|;
      labels[n - 1] == labels[n - 2] + 1 <==> times[n - 1] - times[Opening(labels, n - 2)] >= binSecs
    ensures IsPhaseLabelling(times, binSecs, labels)
  {
    var n := |labels|;
    var P, T := labels[..n - 1], times[..n - 1];
    forall i | 0 < i < n - 1
      ensures StepOk(times, binSecs, labels, i)
    {
      assert StepOk(T, binSecs, P, i);
      StepOkPrefix(times, binSecs, labels, n - 1, i);
    }
    assert StepOk(times, binSecs, labels, n - 1);
    assert labels[0] == P[0];
  }

  /** The rule at row `i` reads only rows up to `i`. */
  lemma StepOkPrefix(times: seq<int>, binSecs: int, labels: seq<nat>, m: nat, i: nat)
    requires 0 < i < m <= |labels| == |times|
    ensures StepOk(times, binSecs, labels, i) <==> StepOk(times[..m], binSecs, labels[..m], i)
  {
    var P, T := labels[..m], times[..m];
    OpeningPrefix(P, labels, i - 1);
    var o := Opening(P, i - 1);
    assert labels[i] == P[i] && labels[i - 1] == P[i - 1];
    assert times[i] == T[i] && times[o] == T[o];
  }

  /** The walk produces a correct labelling, and its state remembers the
      first timestamp of the bin it is in. */
  lemma {:induction false} WalkIsPhaseLabelling(times: seq<int>, binSecs: int)
    requires binSecs > 0
    ensures IsPhaseLabelling(times, binSecs, PhaseLabels(times, binSecs))
    ensures |times| > 0 ==>
      Walk(times, binSecs).binStart == times[Opening(PhaseLabels(times, binSecs), |times| - 1)]
    decreases |times|
  {
    var n := |times|;
    if n > 1 {
      var init := times[..n - 1];
      var prev := Walk(init, binSecs);
      WalkIsPhaseLabelling(init, binSecs);
      var L := PhaseLabels(times, binSecs);
      assert L[..n - 1] == prev.labels;
      OpeningPrefix(prev.labels, L, n - 2);
      assert prev.binStart == times[Opening(L, n - 2)];
      ExtendLabelling(times, binSecs, L);
    }
  }

  /** There is only one correct labelling of a phase. */
  lemma {:induction false} PhaseLabellingUnique(times: seq<int>, binSecs: int, l1: seq<nat>, l2: seq<nat>)
    requires IsPhaseLabelling(times, binSecs, l1) && IsPhaseLabelling(times, binSecs, l2)
    ensures l1 == l2
  {
    PrefixAgree(times, binSecs, l1, l2, |times|);
    assert l1 == l1[..|times|] && l2 == l2[..|times|];
  }

  lemma {:induction false} PrefixAgree(times: seq<int>, binSecs: int, l1: seq<nat>, l2: seq<nat>, n: nat)
    requires IsPhaseLabelling(times, binSecs, l1) && IsPhaseLabelling(times, binSecs, l2)
    requires n <= |times|
    ensures l1[..n] == l2[..n]
    decreases n
  {
    if n > 1 {
      PrefixAgree(times, binSecs, l1, l2, n - 1);
      OpeningPrefix(l1[..n - 1], l1, n - 2);
      OpeningPrefix(l2[..n - 1], l2, n - 2);
      assert l1[n - 2] == l1[..n - 1][n - 2] == l2[..n - 1][n - 2] == l2[n - 2];
      assert StepOk(times, binSecs, l1, n - 1) && StepOk(times, binSecs, l2, n - 1);
      assert l1[n - 1] == l2[n - 1];
      assert l1[..n] == l1[..n - 1] + [l1[n - 1]];
      assert l2[..n] == l2[..n - 1] + [l2[n - 1]];
    }
  }

  /** Every row lies strictly less than `binSecs` after the first row of
      its bin. */
  lemma BinSpanBelow(times: seq<int>, binSecs: int, labels: seq<nat>, i: nat)
    requires binSecs > 0 && IsPhaseLabelling(times, binSecs, labels) && i < |labels|
    ensures times[i] - times[Opening(labels, i)] < binSecs
  {
    if i > 0 {
      assert StepOk(times, binSecs, labels, i);
    }
  }

  /** Labels never decrease along a phase. */
  lemma {:induction false} LabelsMonotone(times: seq<int>, binSecs: int, labels: seq<nat>, i: nat, j: nat)
    requires IsPhaseLabelling(times, binSecs, labels) && i <= j < |labels|
    ensures labels[i] <= labels[j]
    decreases j - i
  {
    if i < j {
      LabelsMonotone(times, binSecs, labels, i, j - 1);
      assert StepOk(times, binSecs, labels, j);
    }
  }

  /** The walk labels a prefix of a phase as it labels the whole phase. */
  lemma {:induction false} WalkPrefix(times: seq<int>, binSecs: int, k: nat)
    requires k <= |times|
    ensures PhaseLabels(times[..k], binSecs) == PhaseLabels(times, binSecs)[..k]
    decreases |times|
  {
    var n := |times|;
    if k == n {
      assert times[..k] == times;
    } else {
      var init := times[..n - 1];
      WalkPrefix(init, binSecs, k);
      assert init[..k] == times[..k];
      assert PhaseLabels(times, binSecs)[..n - 1] == PhaseLabels(init, binSecs);
    }
  }

  /** The loop of lines 143-151, statement by statement. */
  method LabelPhase(times: seq<int>, binSecs: int) returns (labels: seq<nat>)
    ensures labels == PhaseLabels(times, binSecs)
    ensures binSecs > 0 ==> IsPhaseLabelling(times, binSecs, labels)
  {
    labels := [];
    if |times| == 0 {
      return;
    }
    var start := times[0];
    var current: nat := 0;
    var k := 0;
    while k < |times|
      invariant 0 <= k <= |times|
      invariant labels == PhaseLabels(times[..k], binSecs)
      invariant k == 0 ==> current == 0 && start == times[0]
      invariant k > 0 ==> current == labels[k - 1] && start == Walk(times[..k], binSecs).binStart
    {
      assert times[..k + 1][..k] == times[..k];
      if times[k] - start >= binSecs {
        current := current + 1;
        start := times[k];
      }
      labels := labels + [current];
      k := k + 1;
    }
    assert times[..k] == times;
    if binSecs > 0 {
      WalkIsPhaseLabelling(times, binSecs);
    }
  }

  /** Timestamps of the rows in phase `v`, in table order
      (`df[df['LED LIGHTNESS'] == v]['DATE/TIME']`). */
  function PhaseTimes(rows: seq<Row>, v: int): (ts: seq<int>)
    requires AllTimed(rows)
    ensures |ts| <= |rows|
    decreases |rows|
  {
    if |rows| == 0 then []
    else
      var n := |rows|;
      assert AllTimed(rows[..n - 1]);
      PhaseTimes(rows[..n - 1], v) + (if rows[n - 1].led == v then [rows[n - 1].time.value] else [])
  }

  /** The label every row of the table receives: the label the walk over
      its own phase gives it. */
  function RowLabels(rows: seq<Row>, binSecs: int): (labels: seq<nat>)
    requires AllTimed(rows)
    ensures |labels| == |rows|
    decreases |rows|
  {
    if |rows| == 0 then []
    else
      var n := |rows|;
      assert AllTimed(rows[..n - 1]);
      var own := PhaseLabels(PhaseTimes(rows, rows[n - 1].led), binSecs);
      RowLabels(rows[..n - 1], binSecs) + [own[|own| - 1]]
  }

  /** Labels of the rows in phase `v`, in table order. */
  function PhaseSlice(rows: seq<Row>, labels: seq<nat>, v: int): seq<nat>
    requires |labels| == |rows|
    decreases |rows|
  {
    if |rows| == 0 then []
    else
      var n := |rows|;
      PhaseSlice(rows[..n - 1], labels[..n - 1], v) + (if rows[n - 1].led == v then [labels[n - 1]] else [])
  }

  /** The row labels agree with the source's per-phase loop: for every
      phase value, the labels of that phase's rows, read in table order,
      are the labels the walk over that phase's timestamps produces. */
  lemma {:induction false} RowLabelsFollowPhases(rows: seq<Row>, binSecs: int, v: int)
    requires AllTimed(rows)
    ensures PhaseSlice(rows, RowLabels(rows, binSecs), v) == PhaseLabels(PhaseTimes(rows, v), binSecs)
    decreases |rows|
  {
    var n := |rows|;
    if n > 0 {
      var init := rows[..n - 1];
      assert AllTimed(init);
      var L := RowLabels(rows, binSecs);
      assert L[..n - 1] == RowLabels(init, binSecs);
      RowLabelsFollowPhases(init, binSecs, v);
      if rows[n - 1].led == v {
        LastRowLabel(rows, binSecs);
        assert PhaseSlice(rows, L, v) == PhaseSlice(init, L[..n - 1], v) + [L[n - 1]];
      } else {
        assert PhaseTimes(rows, v) == PhaseTimes(init, v);
        assert PhaseSlice(rows, L, v) == PhaseSlice(init, L[..n - 1], v);
      }
    }
  }

  /** The last row's label extends its phase's labels over the rows before it. */
  lemma LastRowLabel(rows: seq<Row>, binSecs: int)
    requires AllTimed(rows) && |rows| > 0
    ensures var n := |rows|;
      var init := rows[..n - 1];
      AllTimed(init) &&
      PhaseLabels(PhaseTimes(rows, rows[n - 1].led), binSecs)
        == PhaseLabels(PhaseTimes(init, rows[n - 1].led), binSecs) + [RowLabels(rows, binSecs)[n - 1]]
  {
    var n := |rows|;
    var v := rows[n - 1].led;
    var init := rows[..n - 1];
    assert AllTimed(init);
    var pt := PhaseTimes(rows, v);
    var m := |PhaseTimes(init, v)|;
    assert pt == PhaseTimes(init, v) + [rows[n - 1].time.value];
    assert pt[..m] == PhaseTimes(init, v);
    WalkPrefix(pt, binSecs, m);
    var full := PhaseLabels(pt, binSecs);
    assert |full| == m + 1;
    assert RowLabels(rows, binSecs)[n - 1] == full[m];
    assert full == full[..m] + [full[m]];
  }
}

=== FILE: naming.dfy ===
/** File names along the pipeline, and the subject id they carry.

    A raw export `<stem><ext>` is cleaned to `<stem>_ID<subject><ext>`
    (extension lower-cased), trimmed to `<stem'>_trimmed<ext'>`, binned by
    replacing every `Trimmed_CLAMS_data` with `Binned_CLAMS_data` and then
    every `.csv` with `_binned.csv`; the recombiner recovers the subject id
    as the four digits after the leftmost `ID`. */
module Naming {
  import opened Common
  import opened Text

  /** Name of the cleaned file (line 41): the stem, `_ID`, the subject id,
      then the lower-cased extension. A four-digit id behind a stem that
      holds no id run of its own is what `extract_id_number` reads back. */
  function CleanedName(path: string, subjectId: string): (r: string)
    ensures NoIdRun(SplitExt(Basename(path)).0) && |subjectId| == 4 && AllDigits(subjectId)
            ==> ExtractId(r) == Some(subjectId)
  {
    var parts := SplitExt(Basename(path));
    IdAfterAnyStem(parts.0, subjectId, Lower(parts.1));
    parts.0 + "_ID" + subjectId + Lower(parts.1)
  }

  /** Name of the trimmed file (line 118): the stem, `_trimmed`, then the
      lower-cased extension. Splitting the new name again finds the
      extended stem and the lower-cased extension. */
  function TrimmedName(file: string): (r: string)
    ensures SplitExt(file).1 != [] ==> SplitExt(r) == (SplitExt(file).0 + "_trimmed", Lower(SplitExt(file).1))
  {
    var parts := SplitExt(file);
    TrimmedSplit(parts.0, parts.1);
    parts.0 + "_trimmed" + Lower(parts.1)
  }

  /** The trimmer's and the binner's output directory names, which line
      207 swaps wherever the first occurs in the path. */
  const TrimmedDirName := "Trimmed_CLAMS_data"
  const BinnedDirName := "Binned_CLAMS_data"

  /** The characters of the two directory names that the binned-name
      lemmas rely on. */
  lemma DirNameFacts()
    ensures |TrimmedDirName| == 18 && TrimmedDirName[0] == 'T' && TrimmedDirName[17] == 'a'
    ensures '.' !in TrimmedDirName && 'I' !in TrimmedDirName
    ensures |BinnedDirName| > 0 && forall k :: 0 <= k < |BinnedDirName| ==> BinnedDirName[k] !in ".csv"
  {
  }

  /** Name of the binned file (line 207), on the file name only: every
      `Trimmed_CLAMS_data` becomes `Binned_CLAMS_data`, then every `.csv`
      becomes `_binned.csv`. The first rewrite brings in no `.csv`, so a
      name without one only has its directory word swapped; a name whose
      only `.csv` ends it gets `_binned` before it. */
  function BinnedName(file: string): (r: string)
    ensures !Contains(file, ".csv") ==> r == ReplaceAll(file, TrimmedDirName, BinnedDirName)
    ensures EndsWith(file, ".csv") && !Contains(file[..|file| - 4], ".csv")
            ==> r == ReplaceAll(file[..|file| - 4], TrimmedDirName, BinnedDirName) + "_binned.csv"
  {
    BinnedNoCsv(file);
    BinnedSuffix(file);
    ReplaceAll(ReplaceAll(file, TrimmedDirName, BinnedDirName), ".csv", "_binned.csv")
  }

  lemma TrimmedSplit(stem: string, ext: string)
    ensures |ext| > 0 && ext[0] == '.' && '.' !in ext[1..]
            ==> SplitExt(stem + "_trimmed" + Lower(ext)) == (stem + "_trimmed", Lower(ext))
  {
    if |ext| > 0 && ext[0] == '.' && '.' !in ext[1..] {
      var low := Lower(ext);
      assert low[0] == '.';
      assert '.' !in low[1..] by {
        forall k | 0 <= k < |low| - 1 ensures low[1..][k] != '.' {
          assert ext[1..][k] == ext[k + 1];
        }
      }
      var a := stem + "_trimmed";
      assert a[|stem|] == '_';
      SplitExtAt(a, low);
    }
  }

  lemma BinnedNoCsv(file: string)
    ensures !Contains(file, ".csv")
            ==> ReplaceAll(ReplaceAll(file, TrimmedDirName, BinnedDirName), ".csv", "_binned.csv")
                == ReplaceAll(file, TrimmedDirName, BinnedDirName)
  {
    if !Contains(file, ".csv") {
      DirNameFacts();
      KeepsAbsent(file, TrimmedDirName, BinnedDirName, ".csv");
    }
  }

  lemma BinnedSuffix(file: string)
    ensures EndsWith(file, ".csv") && !Contains(file[..|file| - 4], ".csv")
            ==> ReplaceAll(ReplaceAll(file, TrimmedDirName, BinnedDirName), ".csv", "_binned.csv")
                == ReplaceAll(file[..|file| - 4], TrimmedDirName, BinnedDirName) + "_binned.csv"
  {
    if EndsWith(file, ".csv") && !Contains(file[..|file| - 4], ".csv") {
      var a := file[..|file| - 4];
      assert file == a + ".csv";
      DirSwapBeforeCsv(a);
      CsvAfterSwap(a);
    }
  }

  lemma CsvAfterSwap(a: string)
    requires !Contains(a, ".csv")
    ensures var a1 := ReplaceAll(a, TrimmedDirName, BinnedDirName);
      ReplaceAll(a1 + ".csv", ".csv", "_binned.csv") == a1 + "_binned.csv"
  {
    var a1 := ReplaceAll(a, TrimmedDirName, BinnedDirName);
    DirNameFacts();
    KeepsAbsent(a, TrimmedDirName, BinnedDirName, ".csv");
    ReplaceAllKeepsPrefix(a1, ".csv", ".csv", "_binned.csv");
    CsvBinned();
  }

  /** The directory-word swap leaves a final `.csv` in place. */
  lemma DirSwapBeforeCsv(a: string)
    ensures ReplaceAll(a + ".csv", TrimmedDirName, BinnedDirName)
            == ReplaceAll(a, TrimmedDirName, BinnedDirName) + ".csv"
  {
    DirNameFacts();
    NoStraddleByOne(a, ".csv", TrimmedDirName);
    MissingChar(".csv", TrimmedDirName, 0);
    ReplaceAllAppend(a, ".csv", TrimmedDirName, BinnedDirName);
  }

  lemma CsvBinned()
    ensures ReplaceAll(".csv", ".csv", "_binned.csv") == "_binned.csv"
  {
    assert OccursAt(".csv", ".csv", 0);
    assert ReplaceAll(".csv", ".csv", "_binned.csv") == "_binned.csv" + ReplaceAll([], ".csv", "_binned.csv");
  }

  /** Binning distributes over a final `.csv`, whatever the name holds
      before it: `<core>.csv` bins to the binned core, then `_binned.csv`. */
  lemma BinnedOfCsv(core: string)
    ensures BinnedName(core + ".csv") == BinnedName(core) + "_binned.csv"
  {
    var c1 := ReplaceAll(core, TrimmedDirName, BinnedDirName);
    DirSwapBeforeCsv(core);
    NoStraddleByOne(c1, ".csv", ".csv");
    ReplaceAllAppend(c1, ".csv", ".csv", "_binned.csv");
    CsvBinned();
  }

  /** Binning distributes over a tail that opens with `_` and a character
      of no directory word, and holds no `T` and no dot: the tail is kept
      as it is. */
  lemma BinnedKeepsTail(stem: string, tail: string)
    requires |tail| >= 2 && tail[0] == '_' && tail[1] !in TrimmedDirName
    requires 'T' !in tail && '.' !in tail
    ensures BinnedName(stem + tail) == BinnedName(stem) + tail
  {
    DirNameFacts();
    NoStraddleByTwo(stem, tail, TrimmedDirName);
    ReplaceAllAppend(stem, tail, TrimmedDirName, BinnedDirName);
    MissingChar(tail, TrimmedDirName, 0);
    var s1 := ReplaceAll(stem, TrimmedDirName, BinnedDirName);
    NoStraddleByOne(s1, tail, ".csv");
    ReplaceAllAppend(s1, tail, ".csv", "_binned.csv");
    MissingChar(tail, ".csv", 0);
  }

  /** `ID` followed by four decimal digits starts at position `i`. */
  predicate IdRunAt(s: string, i: int) {
    0 <= i && i + 6 <= |s| && s[i] == 'I' && s[i + 1] == 'D' && AllDigits(s[i + 2..i + 6])
  }

  predicate NoIdRun(s: string) {
    forall i :: 0 <= i < |s| ==> !IdRunAt(s, i)
  }

  /** Leftmost match position at or after `from` (`re.search` scans left to right). */
  function FirstIdRun(s: string, from: nat): (r: Option<nat>)
    ensures r.Some? ==> from <= r.value && IdRunAt(s, r.value)
                        && forall j :: from <= j < r.value ==> !IdRunAt(s, j)
    ensures r.None? ==> forall j :: from <= j < |s| ==> !IdRunAt(s, j)
    decreases |s| - from
  {
    if from >= |s| then None
    else if IdRunAt(s, from) then Some(from)
    else FirstIdRun(s, from + 1)
  }

  /** `extract_id_number`: the four digits of the leftmost `ID`-and-four-digits run, if any. */
  function ExtractId(name: string): (r: Option<string>)
    ensures r.Some? <==> !NoIdRun(name)
    ensures r.Some? ==> |r.value| == 4 && AllDigits(r.value)
    ensures r.Some? ==> exists i :: IdRunAt(name, i) && r.value == name[i + 2..i + 6]
                                    && forall j :: 0 <= j < i ==> !IdRunAt(name, j)
  {
    match FirstIdRun(name, 0)
    case None => None
    case Some(i) => Some(name[i + 2..i + 6])
  }

  /** A four-digit id placed after `_ID`, behind a stem that holds no id
      run of its own, is what `extract_id_number` finds, whatever follows. */
  lemma IdAfterStem(stem: string, sid: string, rest: string)
    requires NoIdRun(stem)
    requires |sid| == 4 && AllDigits(sid)
    ensures ExtractId(stem + "_ID" + sid + rest) == Some(sid)
  {
    var s := stem + "_ID" + sid + rest;
    var p := |stem| + 1;
    assert s[|stem|] == '_';
    assert s[p] == 'I' && s[p + 1] == 'D';
    assert s[p + 2..p + 6] == sid;
    assert IdRunAt(s, p);
    forall j | 0 <= j < p ensures !IdRunAt(s, j) {
      if j + 6 <= |stem| {
        assert s[j..j + 6] == stem[j..j + 6];
        assert !IdRunAt(stem, j);
        assert s[j + 2..j + 6] == stem[j + 2..j + 6];
      } else if j + 6 <= |s| && j + 2 <= |stem| {
        // a run here would cover position |stem|, which holds '_'
        assert s[j + 2..j + 6][|stem| - j - 2] == '_';
      }
    }
    assert FirstIdRun(s, 0) == Some(p);
  }

  lemma IdAfterAnyStem(stem: string, sid: string, rest: string)
    ensures NoIdRun(stem) && |sid| == 4 && AllDigits(sid) ==> ExtractId(stem + "_ID" + sid + rest) == Some(sid)
  {
    if NoIdRun(stem) && |sid| == 4 && AllDigits(sid) {
      IdAfterStem(stem, sid, rest);
    }
  }

  /** Trimming a cleaned `.csv` name puts `_trimmed` before the extension,
      whatever dots the name holds before it. */
  lemma TrimmedOfCsv(core: string)
    requires HasNonDot(core)
    ensures TrimmedName(core + ".csv") == core + "_trimmed.csv"
  {
    assert '.' !in ".csv"[1..];
    SplitExtAt(core, ".csv");
    LowerCsv();
    AppendAssoc(core, "_trimmed", ".csv");
  }

  lemma LowerCsv()
    ensures Lower(".csv") == ".csv"
  {
    var l := Lower(".csv");
    assert l[0] == '.' && l[1] == 'c' && l[2] == 's' && l[3] == 'v';
  }

  lemma DigitsLack(sid: string, c: char)
    requires AllDigits(sid) && !IsDigit(c)
    ensures c !in sid
  {
    forall k | 0 <= k < |sid| ensures sid[k] != c {
      assert IsDigit(sid[k]);
    }
  }

  /** The trimmed name of a cleaned `<stem>_ID<sid>.csv`, for any stem
      and id: the extension found is the final `.csv`. */
  lemma TrimmedStageName(stem: string, sid: string)
    ensures TrimmedName(stem + "_ID" + sid + ".csv") == stem + "_ID" + sid + "_trimmed.csv"
  {
    var core := stem + "_ID" + sid;
    assert core[|stem|] == '_';
    TrimmedOfCsv(core);
  }

  /** Binning a trimmed name `<stem><tail>.csv`: the stem is binned on its
      own, the tail is kept and the final `.csv` becomes `_binned.csv`. */
  lemma BinnedOfTrimmed(stem: string, tail: string)
    requires |tail| >= 2 && tail[0] == '_' && tail[1] !in TrimmedDirName
    requires 'T' !in tail && '.' !in tail
    ensures BinnedName(stem + tail + ".csv") == BinnedName(stem) + tail + "_binned.csv"
  {
    BinnedOfCsv(stem + tail);
    BinnedKeepsTail(stem, tail);
  }

  /** The binned name of a trimmed `<stem>_ID<sid>_trimmed.csv`, for any
      stem: the stem is binned on its own and the rest gains `_binned`. */
  lemma BinnedStageName(stem: string, sid: string)
    requires AllDigits(sid)
    ensures BinnedName(stem + "_ID" + sid + "_trimmed.csv") == BinnedName(stem) + "_ID" + sid + "_trimmed_binned.csv"
  {
    StageTail(sid);
    BinnedOfTrimmed(stem, "_ID" + sid + "_trimmed");
    StageStrings(stem, sid);
    StageStrings(BinnedName(stem), sid);
  }

  lemma StageTail(sid: string)
    requires AllDigits(sid)
    ensures var tail := "_ID" + sid + "_trimmed";
      |tail| >= 2 && tail[0] == '_' && tail[1] !in TrimmedDirName && 'T' !in tail && '.' !in tail
  {
    DigitsLack(sid, '.');
    DigitsLack(sid, 'T');
  }

  lemma StageStrings(p: string, sid: string)
    ensures p + ("_ID" + sid + "_trimmed") + ".csv" == p + "_ID" + sid + "_trimmed.csv"
    ensures p + ("_ID" + sid + "_trimmed") + "_binned.csv" == p + "_ID" + sid + "_trimmed_binned.csv"
  {
  }

  /** `ID` and the decimal digits: the characters of an id run. */
  const IdChars: set<char> := {'I', 'D', '0', '1', '2', '3', '4', '5', '6', '7', '8', '9'}

  /** An id run read through a window of six characters. */
  lemma IdRunWindow(s: string, i: int)
    requires 0 <= i && i + 6 <= |s|
    ensures IdRunAt(s, i) <==> IdRunAt(s[i..i + 6], 0)
  {
    assert s[i..i + 6][2..6] == s[i + 2..i + 6];
  }

  lemma IdRunWithin(u: string)
    ensures IdRunAt(u, 0) && |u| == 6 ==> Within(u, IdChars)
  {
    if IdRunAt(u, 0) && |u| == 6 {
      forall k | 2 <= k < 6 ensures u[k] in IdChars {
        assert u[2..6][k - 2] == u[k];
        assert IsDigit(u[k]);
      }
    }
  }

  lemma NoIdRunNoWindow(s: string, u: string)
    ensures NoIdRun(s) && |u| == 6 && IdRunAt(u, 0) ==> !Contains(s, u)
  {
    if NoIdRun(s) && |u| == 6 && IdRunAt(u, 0) {
      forall i | 0 <= i <= |s| ensures !OccursAt(s, u, i) {
        if i + 6 <= |s| {
          IdRunWindow(s, i);
          assert !IdRunAt(s, i);
        }
      }
    }
  }

  /** Replacing by text that holds no `I`, `D` or digit creates no id run. */
  lemma NoIdRunAfterReplace(s: string, pat: string, rep: string)
    requires NoIdRun(s) && |pat| > 0 && |rep| > 0 && Outside(rep, IdChars)
    ensures NoIdRun(ReplaceAll(s, pat, rep))
  {
    var r := ReplaceAll(s, pat, rep);
    forall j | 0 <= j < |r| ensures !IdRunAt(r, j) {
      if j + 6 <= |r| {
        var u := r[j..j + 6];
        IdRunWindow(r, j);
        IdRunWithin(u);
        NoIdRunNoWindow(s, u);
        ReplaceAllCreatesNoRun(s, pat, rep, IdChars, u, j);
      }
    }
  }

  lemma BinnedDirIdFree()
    ensures Outside(BinnedDirName, IdChars)
  {
  }

  lemma BinnedSuffixIdFree()
    ensures Outside("_binned.csv", IdChars)
  {
  }

  /** Binning a name creates no id run: neither replacement text holds an
      `I`, a `D` or a digit. */
  lemma BinnedKeepsNoIdRun(stem: string)
    requires NoIdRun(stem)
    ensures NoIdRun(BinnedName(stem))
  {
    BinnedDirIdFree();
    BinnedSuffixIdFree();
    NoIdRunAfterReplace(stem, TrimmedDirName, BinnedDirName);
    NoIdRunAfterReplace(ReplaceAll(stem, TrimmedDirName, BinnedDirName), ".csv", "_binned.csv");
  }

  /** The id given to a raw export survives trimming and binning: from a
      `.csv` export whose stem holds no id run, the cleaned, trimmed and
      binned file names all yield the subject id. */
  lemma {:induction false} IdSurvivesPipeline(path: string, sid: string)
    requires var parts := SplitExt(Basename(path));
      NoIdRun(parts.0) && Lower(parts.1) == ".csv"
    requires |sid| == 4 && AllDigits(sid)
    ensures ExtractId(CleanedName(path, sid)) == Some(sid)
    ensures ExtractId(TrimmedName(CleanedName(path, sid))) == Some(sid)
    ensures ExtractId(BinnedName(TrimmedName(CleanedName(path, sid)))) == Some(sid)
  {
    var stem := SplitExt(Basename(path)).0;
    assert CleanedName(path, sid) == stem + "_ID" + sid + ".csv";
    TrimmedStageName(stem, sid);
    BinnedStageName(stem, sid);
    BinnedKeepsNoIdRun(stem);
    IdAfterStem(stem, sid, "_trimmed.csv");
    IdAfterStem(BinnedName(stem), sid, "_trimmed_binned.csv");
  }
}

=== FILE: recombiner.dfy ===
/** Stage 4, `split_csv_files`: for every selected metric, gather that
    column from every binned file, label each file's series with its
    subject id, and lay the series out as the rows of one table per metric.

    The directory listing is the parameter `files`, in listing order. The
    columns of the per-metric frames are aligned on the row position
    (`concat(axis=1)` is an outer join on the default index), so a series
    shorter than the longest one is padded with missing cells. */
module Recombiner {
  import opened Common
  import opened Text
  import opened Naming
  import Binner

  /** Line 254: the metrics written out, one table each. */
  const SelectedColumns: seq<string> :=
    ["VO2", "ACCO2", "VCO2", "ACCCO2", "RER", "FEED1", "FEED1 ACC", "TOT_AMB", "WHEEL", "WHEEL ACC"]

  /** A binned file as read back: its name in the listing and its columns
      by header. */
  datatype BinnedFile = BinnedFile(name: string, columns: map<string, seq<real>>)

  /** One row of a combined table: the subject label, then one cell per
      bin; `None` is the missing value the outer join pads with. */
  datatype LabelledRow = LabelledRow(subject: string, cells: seq<Option<real>>)

  /** The id as formatted into the column name: a missing id prints as `None`. */
  function IdText(id: Option<string>): string {
    match id
    case None => "None"
    case Some(s) => s
  }

  /** The row label a file should get: `ID` and the id its name carries. */
  function SubjectLabel(name: string): string {
    "ID" + IdText(ExtractId(name))
  }

  /** Line 272: the column renamed after the file's id. When neither the
      metric nor the id holds a `(`, the name splits at its only `(` into
      the metric and the parenthesised `ID<id>`. */
  function ColumnName(metric: string, id: Option<string>): (r: string)
    ensures '(' !in metric && '(' !in IdText(id)
            ==> Split(r, '(') == [metric + " ", "ID" + IdText(id) + ")"]
  {
    ColumnNameSplits(metric, IdText(id));
    metric + " (ID" + IdText(id) + ")"
  }

  lemma ColumnNameSplits(metric: string, t: string)
    ensures '(' !in metric && '(' !in t
            ==> Split(metric + " (ID" + t + ")", '(') == [metric + " ", "ID" + t + ")"]
  {
    if '(' !in metric && '(' !in t {
      var head, core := metric + " ", "ID" + t + ")";
      assert '(' !in head by {
        assert forall k :: 0 <= k < |metric| ==> head[k] == metric[k];
      }
      assert '(' !in core by {
        assert forall k :: 0 <= k < |t| ==> core[k + 2] == t[k];
      }
      assert metric + " (ID" + t + ")" == head + ['('] + core;
      SplitOnce(head, core, '(');
    }
  }

  /** Line 281: drop the first three characters, take the text after the
      first `(` up to the next `)`, and strip it. `None` where there is no
      `(`, and the source fails indexing its split. A label holds no `)`
      and has no surrounding whitespace. */
  function RowLabel(idx: string): (r: Option<string>)
    ensures r.Some? <==> |idx| >= 3 && '(' in idx[3..]
    ensures r.Some? ==> ')' !in r.value
    ensures r.Some? && |r.value| > 0 ==> !IsSpace(r.value[0]) && !IsSpace(r.value[|r.value| - 1])
  {
    var tail := if |idx| >= 3 then idx[3..] else "";
    var parts := Split(tail, '(');
    if |parts| < 2 then None else Some(Strip(Split(parts[1], ')')[0]))
  }

  /** A string with exactly one separator splits into the two sides. */
  lemma SplitOnce(a: string, b: string, c: char)
    requires c !in a && c !in b
    ensures Split(a + [c] + b, c) == [a, b]
  {
    assert Join([a, b], c) == a + [c] + b;
    SplitJoin([a, b], c);
  }

  /** Parsing the renamed column back gives `ID` and the id: the label
      recovers what the renaming put in, for any metric name of at least
      three characters without a parenthesis. */
  lemma RowLabelOfColumnName(metric: string, id: Option<string>)
    requires |metric| >= 3 && '(' !in metric
    requires '(' !in IdText(id) && ')' !in IdText(id)
    requires |IdText(id)| > 0 && !IsSpace(IdText(id)[|IdText(id)| - 1])
    ensures RowLabel(ColumnName(metric, id)) == Some("ID" + IdText(id))
  {
    var t := IdText(id);
    var core := "ID" + t;
    assert '(' !in core && ')' !in core by {
      assert forall k :: 2 <= k < |core| ==> core[k] == t[k - 2];
    }
    assert core[|core| - 1] == t[|t| - 1];
    RowLabelOfName(metric, core, ColumnName(metric, id));
  }

  /** The label parsed from `<metric> (<core>)`. */
  lemma RowLabelOfName(metric: string, core: string, name: string)
    requires |metric| >= 3 && '(' !in metric && '(' !in core && ')' !in core
    requires |core| > 0 && !IsSpace(core[0]) && !IsSpace(core[|core| - 1])
    requires name == metric + " (" + core + ")"
    ensures RowLabel(name) == Some(core)
  {
    NameSplitsAtParen(metric, core);
    ColumnNameTail(metric, core, name);
    RowLabelOfParts(name, metric[3..] + " ", core);
  }

  lemma ColumnNameTail(metric: string, core: string, name: string)
    requires |metric| >= 3 && name == metric + " (" + core + ")"
    ensures name[3..] == metric[3..] + " " + ['('] + (core + ")")
  {
  }

  /** A column name whose tail splits at `(` into a head and an id closed
      by `)` is labelled with that id. */
  lemma RowLabelOfParts(idx: string, head: string, core: string)
    requires |idx| >= 3 && Split(idx[3..], '(') == [head, core + ")"]
    requires ')' !in core && |core| > 0 && !IsSpace(core[0]) && !IsSpace(core[|core| - 1])
    ensures RowLabel(idx) == Some(core)
  {
    assert core + ")" == core + [')'] + "";
    SplitOnce(core, "", ')');
    assert "" + core + "" == core;
    StripSurrounded("", core, "");
  }

  /** After its first three characters, a renamed column splits at its
      only `(` into the rest of the metric name and the parenthesised id. */
  lemma NameSplitsAtParen(metric: string, core: string)
    requires |metric| >= 3 && '(' !in metric && '(' !in core
    ensures Split(metric[3..] + " " + ['('] + (core + ")"), '(') == [metric[3..] + " ", core + ")"]
  {
    var head := metric[3..] + " ";
    assert '(' !in head by {
      assert forall k :: 0 <= k < |head| - 1 ==> head[k] == metric[k + 3];
    }
    assert '(' !in core + ")" by {
      assert forall k :: 0 <= k < |core| ==> (core + ")")[k] == core[k];
    }
    SplitOnce(head, core + ")", '(');
  }

  /** An id as `extract_id_number` returns it: four digits, or none. */
  predicate WellFormedId(id: Option<string>) {
    id.Some? ==> |id.value| == 4 && AllDigits(id.value)
  }

  /** Every selected metric, with any id `extract_id_number` can return,
      is labelled `ID<id>` (or `IDNone`). */
  lemma SelectedRowLabel(metric: string, id: Option<string>)
    requires metric in SelectedColumns && WellFormedId(id)
    ensures RowLabel(ColumnName(metric, id)) == Some("ID" + IdText(id))
  {
    var t := IdText(id);
    if id.Some? {
      assert forall k :: 0 <= k < |t| ==> IsDigit(t[k]);
    }
    RowLabelOfColumnName(metric, id);
  }

  /** The label of the row contributed by the file `name`. */
  function Label(metric: string, name: string): (r: string)
    requires metric in SelectedColumns
    ensures r == "ID" + IdText(ExtractId(name))
  {
    SelectedRowLabel(metric, ExtractId(name));
    RowLabel(ColumnName(metric, ExtractId(name))).value
  }

  /** The files that contribute to `metric`: `.csv` names holding that
      column, in listing order. */
  function Contributors(files: seq<BinnedFile>, metric: string): (r: seq<BinnedFile>)
    ensures forall f :: f in r <==> f in files && EndsWith(f.name, ".csv") && metric in f.columns
    ensures |r| <= |files|
  {
    if |files| == 0 then []
    else
      var rest := Contributors(files[1..], metric);
      assert forall f :: f in files <==> f == files[0] || f in files[1..] by {
        assert files == [files[0]] + files[1..];
      }
      if EndsWith(files[0].name, ".csv") && metric in files[0].columns then [files[0]] + rest else rest
  }

  /** Selecting contributors distributes over concatenation: the files of
      `a + b` contribute in the order they are listed. */
  lemma {:induction false} ContributorsAppend(a: seq<BinnedFile>, b: seq<BinnedFile>, metric: string)
    ensures Contributors(a + b, metric) == Contributors(a, metric) + Contributors(b, metric)
    decreases |a|
  {
    if |a| == 0 {
      assert a + b == b;
    } else {
      assert (a + b)[1..] == a[1..] + b;
      ContributorsAppend(a[1..], b, metric);
    }
  }

  /** One file contributes itself exactly when it is a `.csv` file holding
      the metric. */
  lemma ContributorsSingle(f: BinnedFile, metric: string)
    ensures Contributors([f], metric) == if EndsWith(f.name, ".csv") && metric in f.columns then [f] else []
  {
    assert [f][1..] == [];
  }

  /** The length of the longest series: the row count of the outer join. */
  function MaxLen(cols: seq<seq<real>>): (w: nat)
    ensures forall j :: 0 <= j < |cols| ==> |cols[j]| <= w
    ensures |cols| > 0 ==> exists j :: 0 <= j < |cols| && |cols[j]| == w
    ensures |cols| == 0 ==> w == 0
  {
    if |cols| == 0 then 0
    else
      var w := MaxLen(cols[1..]);
      assert forall j :: 1 <= j < |cols| ==> cols[j] == cols[1..][j - 1];
      if |cols[0]| >= w then |cols[0]| else w
  }

  /** A series extended to `w` cells; the missing tail is `None`. */
  function Pad(col: seq<real>, w: nat): (cells: seq<Option<real>>)
    requires |col| <= w
    ensures |cells| == w
    ensures forall k :: 0 <= k < |col| ==> cells[k] == Some(col[k])
    ensures forall k :: |col| <= k < w ==> cells[k] == None
  {
    seq(w, k requires 0 <= k < w => if k < |col| then Some(col[k]) else None)
  }

  /** The values of a padded row up to its first missing cell. */
  function Unpad(cells: seq<Option<real>>): seq<real> {
    if |cells| == 0 || cells[0].None? then [] else [cells[0].value] + Unpad(cells[1..])
  }

  /** Padding loses nothing: the series is read back from its row. */
  lemma {:induction false} UnpadPad(col: seq<real>, w: nat)
    requires |col| <= w
    ensures Unpad(Pad(col, w)) == col
    decreases |col|
  {
    if |col| > 0 {
      UnpadPad(col[1..], w - 1);
      assert Pad(col, w)[1..] == Pad(col[1..], w - 1);
    }
  }

  /** The series of `metric` from each contributor. */
  function Series(cs: seq<BinnedFile>, metric: string): (cols: seq<seq<real>>)
    requires forall j :: 0 <= j < |cs| ==> metric in cs[j].columns
    ensures |cols| == |cs|
    ensures forall j :: 0 <= j < |cs| ==> cols[j] == cs[j].columns[metric]
  {
    seq(|cs|, j requires 0 <= j < |cs| => cs[j].columns[metric])
  }

  /** The row count of the outer join of `metric`'s series. */
  function Width(files: seq<BinnedFile>, metric: string): (w: nat)
    ensures var cs := Contributors(files, metric);
      && (forall j :: 0 <= j < |cs| ==> metric in cs[j].columns && |cs[j].columns[metric]| <= w)
      && (|cs| > 0 ==> exists j :: 0 <= j < |cs| && |cs[j].columns[metric]| == w)
  {
    var cs := Contributors(files, metric);
    assert forall j :: 0 <= j < |cs| ==> cs[j] in cs;
    var cols := Series(cs, metric);
    assert forall j :: 0 <= j < |cs| ==> |cols[j]| == |cs[j].columns[metric]|;
    MaxLen(cols)
  }

  /** Lines 257-281 for one metric: one row per contributing file, in
      listing order, labelled with the file's id, holding that file's
      series padded to the common width. */
  function CombineMetric(files: seq<BinnedFile>, metric: string): (rows: seq<LabelledRow>)
    requires metric in SelectedColumns
    ensures |rows| <= |files|
    ensures var cs := Contributors(files, metric);
      && |rows| == |cs|
      && forall j :: 0 <= j < |cs| ==>
           && metric in cs[j].columns
           && rows[j].subject == SubjectLabel(cs[j].name)
           && rows[j].cells == Pad(cs[j].columns[metric], Width(files, metric))
  {
    RowsFor(Contributors(files, metric), metric, Width(files, metric))
  }

  /** One row per file, in order. */
  function RowsFor(cs: seq<BinnedFile>, metric: string, w: nat): (rows: seq<LabelledRow>)
    requires metric in SelectedColumns
    requires forall j :: 0 <= j < |cs| ==> metric in cs[j].columns && |cs[j].columns[metric]| <= w
    ensures |rows| == |cs|
    ensures forall j :: 0 <= j < |cs| ==> rows[j].subject == SubjectLabel(cs[j].name)
    ensures forall j :: 0 <= j < |cs| ==> rows[j].cells == Pad(cs[j].columns[metric], w)
  {
    seq(|cs|, j requires 0 <= j < |cs| => RowFor(cs[j], metric, w))
  }

  /** One file's row of the combined table. */
  function RowFor(f: BinnedFile, metric: string, w: nat): (row: LabelledRow)
    requires metric in SelectedColumns && metric in f.columns && |f.columns[metric]| <= w
    ensures row.subject == SubjectLabel(f.name)
    ensures row.cells == Pad(f.columns[metric], w)
  {
    LabelledRow(Label(metric, f.name), Pad(f.columns[metric], w))
  }

  /** The cells of the combined table: row `j` holds the `k`-th bin of the
      `j`-th contributing file where that file has one, and a missing cell
      beyond; every row is as wide as the longest series, and the series
      reads back from its row. */
  lemma CombinedCells(files: seq<BinnedFile>, metric: string, j: nat)
    requires metric in SelectedColumns && j < |Contributors(files, metric)|
    ensures var cs := Contributors(files, metric);
      var row := CombineMetric(files, metric)[j];
      var col := cs[j].columns[metric];
      && (forall k :: 0 <= k < |col| ==> row.cells[k] == Some(col[k]))
      && (forall k :: |col| <= k < |row.cells| ==> row.cells[k] == None)
      && (forall i :: 0 <= i < |cs| ==> |cs[i].columns[metric]| <= |row.cells|)
      && (exists i :: 0 <= i < |cs| && |cs[i].columns[metric]| == |row.cells|)
      && Unpad(row.cells) == col
  {
    UnpadPad(Contributors(files, metric)[j].columns[metric], Width(files, metric));
  }

  /** `split_csv_files`: the combined table of every selected metric that
      at least one `.csv` file of the listing holds. */
  function Combine(files: seq<BinnedFile>): (out: map<string, seq<LabelledRow>>)
    ensures forall m :: m in out <==>
      m in SelectedColumns && exists f :: f in files && EndsWith(f.name, ".csv") && m in f.columns
    ensures forall m :: m in out ==> out[m] == CombineMetric(files, m)
  {
    map m | m in SelectedColumns && |Contributors(files, m)| > 0 :: CombineMetric(files, m)
  }

  /** The selected columns of a binned table as written to its file
      (before the four-decimal rounding, which is not modelled). */
  function BinnedColumns(out: seq<Binner.BinnedRow>): (cols: map<string, seq<real>>)
    ensures forall m :: m in SelectedColumns ==> m in cols && |cols[m]| == |out|
  {
    map[
      "VO2" := seq(|out|, i requires 0 <= i < |out| => out[i].bucket.vo2),
      "ACCO2" := seq(|out|, i requires 0 <= i < |out| => out[i].bucket.acco2),
      "VCO2" := seq(|out|, i requires 0 <= i < |out| => out[i].bucket.vco2),
      "ACCCO2" := seq(|out|, i requires 0 <= i < |out| => out[i].bucket.accco2),
      "RER" := seq(|out|, i requires 0 <= i < |out| => out[i].bucket.rer),
      "FEED1" := seq(|out|, i requires 0 <= i < |out| => out[i].bucket.feed1),
      "FEED1 ACC" := seq(|out|, i requires 0 <= i < |out| => out[i].bucket.feed1Acc),
      "TOT_AMB" := seq(|out|, i requires 0 <= i < |out| => out[i].bucket.totAmb),
      "WHEEL" := seq(|out|, i requires 0 <= i < |out| => out[i].bucket.wheel),
      "WHEEL ACC" := seq(|out|, i requires 0 <= i < |out| => out[i].bucket.wheelAcc)
    ]
  }

  /** When every file of the listing is a binned `.csv` table with the
      same number of bins, every selected metric is combined, every file
      contributes one row, and no cell is padded. */
  lemma EqualBinsNeedNoPadding(files: seq<BinnedFile>, outs: seq<seq<Binner.BinnedRow>>, n: nat)
    requires |outs| == |files|
    requires forall j :: 0 <= j < |files| ==>
      && EndsWith(files[j].name, ".csv")
      && files[j].columns == BinnedColumns(outs[j])
      && |outs[j]| == n
    ensures forall m :: m in SelectedColumns ==> (m in Combine(files) <==> |files| > 0)
    ensures forall m :: m in SelectedColumns ==> Contributors(files, m) == files
    ensures forall m, j, k :: m in SelectedColumns && 0 <= j < |files| && 0 <= k < |CombineMetric(files, m)[j].cells| ==>
      CombineMetric(files, m)[j].cells[k].Some?
  {
    forall m | m in SelectedColumns ensures Contributors(files, m) == files {
      AllContribute(files, m);
    }
    forall m | m in SelectedColumns ensures (m in Combine(files) <==> |files| > 0) {
      if |files| > 0 {
        assert files[0] in files;
      }
    }
    forall m, j, k | m in SelectedColumns && 0 <= j < |files| && 0 <= k < |CombineMetric(files, m)[j].cells|
      ensures CombineMetric(files, m)[j].cells[k].Some?
    {
      NoPaddingCell(files, outs, n, m, j, k);
    }
  }

  lemma {:induction false} AllContribute(files: seq<BinnedFile>, m: string)
    requires forall j :: 0 <= j < |files| ==> EndsWith(files[j].name, ".csv") && m in files[j].columns
    ensures Contributors(files, m) == files
    decreases |files|
  {
    if |files| > 0 {
      AllContribute(files[1..], m);
      assert files == [files[0]] + files[1..];
    }
  }

  lemma NoPaddingCell(files: seq<BinnedFile>, outs: seq<seq<Binner.BinnedRow>>, n: nat, m: string, j: nat, k: nat)
    requires |outs| == |files|
    requires forall j :: 0 <= j < |files| ==>
      && EndsWith(files[j].name, ".csv")
      && files[j].columns == BinnedColumns(outs[j])
      && |outs[j]| == n
    requires m in SelectedColumns && Contributors(files, m) == files
    requires j < |files| && k < |CombineMetric(files, m)[j].cells|
    ensures CombineMetric(files, m)[j].cells[k].Some?
  {
    CombinedCells(files, m, j);
    var cells := CombineMetric(files, m)[j].cells;
    var i :| 0 <= i < |files| && |files[i].columns[m]| == |cells|;
    assert |files[i].columns[m]| == n == |files[j].columns[m]|;
  }

  /** End to end: a subject whose export stem holds no id of its own keeps its id through the three renamings, and its row in
      every combined table is labelled `ID<subject id>`. */
  lemma PipelineLabel(path: string, sid: string, metric: string)
    requires NoIdRun(SplitExt(Basename(path)).0)
    requires Lower(SplitExt(Basename(path)).1) == ".csv"
    requires |sid| == 4 && AllDigits(sid)
    requires metric in SelectedColumns
    ensures Label(metric, BinnedName(TrimmedName(CleanedName(path, sid)))) == "ID" + sid
  {
    IdSurvivesPipeline(path, sid);
  }
}

=== FILE: table.dfy ===
/** One data row of a cleaned CLAMS export, restricted to the columns the
    trimmer, binner and recombiner read.

    `time` is `DATE/TIME` as whole seconds, `None` where the text could
    not be parsed (pandas' `NaT`); `led` is `LED LIGHTNESS`, the light
    phase. The beam-break and wheel counters are integers; `FEED1`, the
    food weighed per interval, the accumulators and the averaged
    gas-exchange and environment measures are reals. Columns the
    binner drops (`STATUS1`, `O2IN`, ...) are not represented. */
module Table {
  import opened Common

  const SecondsPerHour: int := 3600

  datatype Row = Row(
    time: Option<int>,
    interval: int,       // INTERVAL
    chan: int,           // CHAN
    led: int,            // LED LIGHTNESS
    xamb: int,           // XAMB
    yamb: int,           // YAMB
    wheel: int,          // WHEEL
    feed1: real,         // FEED1
    acco2: real,         // ACCO2
    accco2: real,        // ACCCO2
    feed1Acc: real,      // FEED1 ACC
    wheelAcc: real,      // WHEEL ACC
    vo2: real,           // VO2
    vco2: real,          // VCO2
    rer: real,           // RER
    heat: real,          // HEAT
    flow: real,          // FLOW
    pressure: real,      // PRESSURE
    enclosureTemp: real, // ENCLOSURE TEMP
    setpoint: real       // ENCLOSURE SETPOINT
  )

  /** Every row carries a parsed timestamp. */
  predicate AllTimed(rows: seq<Row>) {
    forall i :: 0 <= i < |rows| ==> rows[i].time.Some?
  }

  /** The rows that carry a timestamp are in time order; rows without
      one (`NaT`) may sit anywhere. */
  predicate TimedInOrder(rows: seq<Row>) {
    forall i, j :: 0 <= i < j < |rows| && rows[i].time.Some? && rows[j].time.Some? ==>
      rows[i].time.value <= rows[j].time.value
  }

  /** Timestamps never decrease down the table. */
  predicate TimesNonDecreasing(rows: seq<Row>) {
    AllTimed(rows) && forall i, j :: 0 <= i < j < |rows| ==> rows[i].time.value <= rows[j].time.value
  }
}

=== FILE: text.dfy ===
/** The few Python string operations the pipeline relies on: `in`,
    `split`, `strip`, `lower`, `endswith`, `replace`, and the `os.path`
    helpers `basename` and `splitext` (POSIX flavour). */
module Text {
  import opened Common

  /** `str.isspace` for one character: the ASCII controls TAB..CR and
      FS..US, the space, NEL, NBSP, and the Unicode space separators. */
  predicate IsSpace(c: char) {
    || ('\t' <= c <= '\r')
    || ('\U{001C}' <= c <= '\U{001F}')
    || c == ' ' || c == '\U{0085}' || c == '\U{00A0}' || c == '\U{1680}'
    || ('\U{2000}' <= c <= '\U{200A}')
    || c == '\U{2028}' || c == '\U{2029}' || c == '\U{202F}' || c == '\U{205F}' || c == '\U{3000}'
  }

  predicate AllSpace(s: string) {
    forall k :: 0 <= k < |s| ==> IsSpace(s[k])
  }

  predicate IsDigit(c: char) {
    '0' <= c <= '9'
  }

  predicate AllDigits(s: string) {
    forall k :: 0 <= k < |s| ==> IsDigit(s[k])
  }

  /** `str.lower` restricted to ASCII letters. */
  function Lower(s: string): (r: string)
    ensures |r| == |s|
    ensures forall k :: 0 <= k < |s| && !('A' <= s[k] <= 'Z') ==> r[k] == s[k]
    ensures forall k :: 0 <= k < |s| && 'A' <= s[k] <= 'Z' ==> r[k] == (s[k] as int + 32) as char
  {
    if |s| == 0 then []
    else [if 'A' <= s[0] <= 'Z' then (s[0] as int + 32) as char else s[0]] + Lower(s[1..])
  }

  predicate OccursAt(s: string, sub: string, i: int) {
    0 <= i && i + |sub| <= |s| && s[i..i + |sub|] == sub
  }

  /** Python's `sub in s`. */
  predicate Contains(s: string, sub: string) {
    exists i :: 0 <= i <= |s| && OccursAt(s, sub, i)
  }

  predicate EndsWith(s: string, suffix: string) {
    |suffix| <= |s| && s[|s| - |suffix|..] == suffix
  }

  /** Position of the leftmost `c` in `s` (`str.find`). */
  function IndexOf(s: string, c: char): (r: Option<nat>)
    ensures r.Some? ==> r.value < |s| && s[r.value] == c && c !in s[..r.value]
    ensures r.None? ==> c !in s
  {
    if |s| == 0 then None
    else if s[0] == c then Some(0)
    else
      match IndexOf(s[1..], c)
      case None => None
      case Some(i) => Some(i + 1)
  }

  /** Position of the rightmost `c` in `s` (`str.rfind`). */
  function LastIndexOf(s: string, c: char): (r: Option<nat>)
    ensures r.Some? ==> r.value < |s| && s[r.value] == c && c !in s[r.value + 1..]
    ensures r.None? ==> c !in s
  {
    if |s| == 0 then None
    else if s[|s| - 1] == c then Some(|s| - 1)
    else LastIndexOf(s[..|s| - 1], c)
  }

  /** `s.split(c)`: the fields between occurrences of `c`. */
  function Split(s: string, c: char): (fields: seq<string>)
    ensures |fields| >= 1
    ensures forall k :: 0 <= k < |fields| ==> c !in fields[k]
    ensures c !in s ==> fields == [s]
    ensures c in s ==> |fields| >= 2
    decreases |s|
  {
    match IndexOf(s, c)
    case None => [s]
    case Some(i) => [s[..i]] + Split(s[i + 1..], c)
  }

  /** `c.join(fields)`, the inverse of `Split`. */
  function Join(fields: seq<string>, c: char): string
    requires |fields| >= 1
  {
    if |fields| == 1 then fields[0] else fields[0] + [c] + Join(fields[1..], c)
  }

  /** Splitting loses nothing: joining the fields back gives the string. */
  lemma {:induction false} JoinSplit(s: string, c: char)
    ensures Join(Split(s, c), c) == s
    decreases |s|
  {
    match IndexOf(s, c)
    case None =>
    case Some(i) =>
      var rest := Split(s[i + 1..], c);
      var fields := [s[..i]] + rest;
      assert Split(s, c) == fields;
      JoinSplit(s[i + 1..], c);
      assert fields[0] == s[..i] && fields[1..] == rest;
      assert Join(fields, c) == s[..i] + [c] + Join(rest, c);
      assert s == s[..i] + [c] + s[i + 1..];
  }

  /** Splitting a join of comma-free fields gives the fields back. */
  lemma {:induction false} SplitJoin(fields: seq<string>, c: char)
    requires |fields| >= 1
    requires forall k :: 0 <= k < |fields| ==> c !in fields[k]
    ensures Split(Join(fields, c), c) == fields
    decreases |fields|
  {
    if |fields| > 1 {
      SplitAtFirst(fields[0], Join(fields[1..], c), c);
      SplitJoin(fields[1..], c);
      assert fields == [fields[0]] + fields[1..];
    }
  }

  /** The first field of a split is everything before the first separator. */
  lemma SplitAtFirst(f: string, t: string, c: char)
    requires c !in f
    ensures Split(f + [c] + t, c) == [f] + Split(t, c)
  {
    var s := f + [c] + t;
    assert s[|f|] == c;
    assert s[..|f|] == f;
    assert IndexOf(s, c) == Some(|f|);
    assert s[|f| + 1..] == t;
  }

  /** `s.lstrip()`: drop leading whitespace. */
  function TrimStart(s: string): (r: string)
    ensures |r| <= |s| && r == s[|s| - |r|..]
    ensures AllSpace(s[..|s| - |r|])
    ensures |r| > 0 ==> !IsSpace(r[0])
  {
    if |s| > 0 && IsSpace(s[0]) then TrimStart(s[1..]) else s
  }

  /** `s.rstrip()`: drop trailing whitespace. */
  function TrimEnd(s: string): (r: string)
    ensures |r| <= |s| && r == s[..|r|]
    ensures AllSpace(s[|r|..])
    ensures |r| > 0 ==> !IsSpace(r[|r| - 1])
  {
    if |s| > 0 && IsSpace(s[|s| - 1]) then TrimEnd(s[..|s| - 1]) else s
  }

  /** `s.strip()`. */
  function Strip(s: string): (r: string)
    ensures |r| > 0 ==> !IsSpace(r[0]) && !IsSpace(r[|r| - 1])
    ensures forall ch :: ch in r ==> ch in s
  {
    TrimEnd(TrimStart(s))
  }

  /** Strip removes exactly the surrounding whitespace: a core with
      non-blank ends, wrapped in blanks, is recovered unchanged. */
  lemma {:induction false} StripSurrounded(pre: string, core: string, post: string)
    requires AllSpace(pre) && AllSpace(post)
    requires |core| > 0 ==> !IsSpace(core[0]) && !IsSpace(core[|core| - 1])
    ensures Strip(pre + core + post) == core
  {
    var s := pre + core + post;
    assert s == pre + (core + post);
    if |core| > 0 {
      TrimStartSkips(pre, core + post);
      assert TrimStart(core + post) == core + post;
      TrimEndSkips(core, post);
    } else {
      assert s == pre + post;
      assert AllSpace(pre + post) by {
        forall k | 0 <= k < |pre + post| ensures IsSpace((pre + post)[k]) {
          if k < |pre| { assert (pre + post)[k] == pre[k]; } else { assert (pre + post)[k] == post[k - |pre|]; }
        }
      }
      AllSpaceTrimStart(pre + post);
    }
  }

  lemma {:induction false} TrimStartSkips(pre: string, rest: string)
    requires AllSpace(pre)
    requires |rest| > 0 ==> !IsSpace(rest[0])
    ensures TrimStart(pre + rest) == TrimStart(rest)
    decreases |pre|
  {
    if |pre| > 0 {
      assert (pre + rest)[1..] == pre[1..] + rest;
      TrimStartSkips(pre[1..], rest);
    } else {
      assert pre + rest == rest;
    }
  }

  lemma {:induction false} TrimEndSkips(core: string, post: string)
    requires AllSpace(post)
    requires |core| > 0 && !IsSpace(core[|core| - 1])
    ensures TrimEnd(core + post) == core
    decreases |post|
  {
    if |post| > 0 {
      assert (core + post)[..|core + post| - 1] == core + post[..|post| - 1];
      TrimEndSkips(core, post[..|post| - 1]);
    } else {
      assert core + post == core;
    }
  }

  lemma {:induction false} AllSpaceTrimStart(s: string)
    requires AllSpace(s)
    ensures TrimStart(s) == [] && TrimEnd([]) == []
    decreases |s|
  {
    if |s| > 0 {
      AllSpaceTrimStart(s[1..]);
    }
  }

  /** `os.path.basename`: the part after the last `/`. */
  function Basename(path: string): (r: string)
    ensures '/' !in r
    ensures EndsWith(path, r)
    ensures '/' in path ==> |r| < |path| && path[|path| - |r| - 1] == '/'
    ensures '/' !in path ==> r == path
  {
    match LastIndexOf(path, '/')
    case None => path
    case Some(i) => path[i + 1..]
  }

  predicate HasNonDot(s: string) {
    exists k :: 0 <= k < |s| && s[k] != '.'
  }

  /** `os.path.splitext` on a name without directory part: the extension
      starts at the last dot, unless only dots precede that dot. */
  function SplitExt(name: string): (r: (string, string))
    ensures r.0 + r.1 == name
    ensures r.1 != [] ==> r.1[0] == '.' && '.' !in r.1[1..] && HasNonDot(r.0)
    ensures r.1 == [] ==> forall d :: 0 <= d < |name| && name[d] == '.' ==> !HasNonDot(name[..d])
  {
    match LastIndexOf(name, '.')
    case None => (name, [])
    case Some(d) =>
      if HasNonDot(name[..d]) then
        assert name[..d] + name[d..] == name;
        (name[..d], name[d..])
      else
        assert forall e :: d < e < |name| ==> name[e] != '.' by {
          forall e | d < e < |name| ensures name[e] != '.' {
            assert name[e] == name[d + 1..][e - d - 1];
          }
        }
        (name, [])
  }

  /** In `a + e`, where `e` starts with the only dot it holds, the last
      dot is the one opening `e`. */
  lemma {:induction false} LastDotAt(a: string, e: string)
    requires |e| > 0 && e[0] == '.' && '.' !in e[1..]
    ensures LastIndexOf(a + e, '.') == Some(|a|)
    decreases |e|
  {
    var s := a + e;
    if |e| > 1 {
      assert s[|s| - 1] == e[1..][|e| - 2];
      assert s[..|s| - 1] == a + e[..|e| - 1];
      assert e[..|e| - 1][1..] == e[1..][..|e| - 2];
      LastDotAt(a, e[..|e| - 1]);
    }
  }

  /** `splitext` recovers a stem and an extension it is given: a stem with
      a character other than a dot, and an extension that starts with its
      only dot. */
  lemma SplitExtAt(a: string, e: string)
    requires HasNonDot(a)
    requires |e| > 0 && e[0] == '.' && '.' !in e[1..]
    ensures SplitExt(a + e) == (a, e)
  {
    var s := a + e;
    LastDotAt(a, e);
    assert s[..|a|] == a && s[|a|..] == e;
  }

  /** `s.replace(pat, rep)`: leftmost, non-overlapping occurrences. */
  function ReplaceAll(s: string, pat: string, rep: string): (r: string)
    requires |pat| > 0
    ensures !Contains(s, pat) ==> r == s
    decreases |s|
  {
    if OccursAt(s, pat, 0) then rep + ReplaceAll(s[|pat|..], pat, rep)
    else if |s| == 0 then []
    else
      NotContainsTail(s, pat);
      [s[0]] + ReplaceAll(s[1..], pat, rep)
  }

  /** Replacing a pattern by itself gives back the string, whatever it
      holds: every occurrence the scan consumes is rebuilt in place. */
  lemma {:induction false} ReplaceAllSelf(s: string, pat: string)
    requires |pat| > 0
    ensures ReplaceAll(s, pat, pat) == s
    decreases |s|
  {
    if OccursAt(s, pat, 0) {
      ReplaceAllSelf(s[|pat|..], pat);
      assert s == s[..|pat|] + s[|pat|..];
    } else if |s| > 0 {
      ReplaceAllSelf(s[1..], pat);
      assert s == [s[0]] + s[1..];
    }
  }

  /** No occurrence of `pat` in `a + b` starts inside `a` and ends inside `b`. */
  predicate NoStraddle(a: string, b: string, pat: string) {
    forall i :: 0 <= i < |a| < i + |pat| ==> !OccursAt(a + b, pat, i)
  }

  /** Where no occurrence straddles the join, replacing in `a + b` is
      replacing in `a` and in `b` separately: the scan leaves `a` exactly
      at its end. */
  lemma {:induction false} ReplaceAllAppend(a: string, b: string, pat: string, rep: string)
    requires |pat| > 0 && NoStraddle(a, b, pat)
    ensures ReplaceAll(a + b, pat, rep) == ReplaceAll(a, pat, rep) + ReplaceAll(b, pat, rep)
    decreases |a|
  {
    if |a| == 0 {
      assert a + b == b;
    } else if OccursAt(a + b, pat, 0) {
      assert !(|a| < |pat|);
      NoStraddleShift(a, b, pat, |pat|);
      ReplaceAllAppend(a[|pat|..], b, pat, rep);
      AppendStepAtOccurrence(a, b, pat, rep);
    } else {
      NoStraddleShift(a, b, pat, 1);
      ReplaceAllAppend(a[1..], b, pat, rep);
      AppendStepPastChar(a, b, pat, rep);
    }
  }

  lemma AppendStepAtOccurrence(a: string, b: string, pat: string, rep: string)
    requires 0 < |pat| <= |a| && OccursAt(a + b, pat, 0)
    requires ReplaceAll(a[|pat|..] + b, pat, rep) == ReplaceAll(a[|pat|..], pat, rep) + ReplaceAll(b, pat, rep)
    ensures ReplaceAll(a + b, pat, rep) == ReplaceAll(a, pat, rep) + ReplaceAll(b, pat, rep)
  {
    AtOccurrence(a, b, pat, rep);
    AppendAssoc(rep, ReplaceAll(a[|pat|..], pat, rep), ReplaceAll(b, pat, rep));
  }

  /** With an occurrence at the front, both scans emit `rep` and resume after it. */
  lemma AtOccurrence(a: string, b: string, pat: string, rep: string)
    requires 0 < |pat| <= |a| && OccursAt(a + b, pat, 0)
    ensures ReplaceAll(a + b, pat, rep) == rep + ReplaceAll(a[|pat|..] + b, pat, rep)
    ensures ReplaceAll(a, pat, rep) == rep + ReplaceAll(a[|pat|..], pat, rep)
  {
    assert (a + b)[..|pat|] == a[..|pat|];
    assert (a + b)[|pat|..] == a[|pat|..] + b;
  }

  lemma AppendStepPastChar(a: string, b: string, pat: string, rep: string)
    requires |pat| > 0 && |a| > 0 && !OccursAt(a + b, pat, 0)
    requires ReplaceAll(a[1..] + b, pat, rep) == ReplaceAll(a[1..], pat, rep) + ReplaceAll(b, pat, rep)
    ensures ReplaceAll(a + b, pat, rep) == ReplaceAll(a, pat, rep) + ReplaceAll(b, pat, rep)
  {
    PastChar(a, b, pat, rep);
    AppendAssoc([a[0]], ReplaceAll(a[1..], pat, rep), ReplaceAll(b, pat, rep));
  }

  lemma AppendAssoc<T>(x: seq<T>, y: seq<T>, z: seq<T>)
    ensures x + (y + z) == (x + y) + z
  {
  }

  /** With no occurrence at the front, both scans copy the first character. */
  lemma PastChar(a: string, b: string, pat: string, rep: string)
    requires |pat| > 0 && |a| > 0 && !OccursAt(a + b, pat, 0)
    ensures ReplaceAll(a + b, pat, rep) == [a[0]] + ReplaceAll(a[1..] + b, pat, rep)
    ensures ReplaceAll(a, pat, rep) == [a[0]] + ReplaceAll(a[1..], pat, rep)
  {
    if |pat| <= |a| {
      assert (a + b)[..|pat|] == a[..|pat|];
    }
    assert (a + b)[1..] == a[1..] + b;
  }

  lemma NoStraddleShift(a: string, b: string, pat: string, d: nat)
    requires NoStraddle(a, b, pat) && 0 < d <= |a|
    ensures NoStraddle(a[d..], b, pat)
  {
    forall i | 0 <= i < |a[d..]| < i + |pat| ensures !OccursAt(a[d..] + b, pat, i) {
      assert a[d..] + b == (a + b)[d..];
      if i + |pat| <= |a[d..] + b| {
        assert (a[d..] + b)[i..i + |pat|] == (a + b)[i + d..i + d + |pat|];
      }
      assert !OccursAt(a + b, pat, i + d);
    }
  }

  /** The leftmost occurrence is the one replaced, and the scan resumes
      right after it. */
  lemma ReplaceAllLeftmost(a: string, b: string, pat: string, rep: string)
    requires |pat| > 0 && !Contains(a + pat[..|pat| - 1], pat)
    ensures ReplaceAll(a + pat + b, pat, rep) == a + rep + ReplaceAll(b, pat, rep)
  {
    var front := a + pat[..|pat| - 1];
    forall i | 0 <= i < |a| < i + |pat| ensures !OccursAt(a + (pat + b), pat, i) {
      assert (a + (pat + b))[i..i + |pat|] == front[i..i + |pat|];
      assert !OccursAt(front, pat, i);
    }
    forall i | 0 <= i <= |a| && OccursAt(a, pat, i) ensures OccursAt(front, pat, i) {
      assert front[i..i + |pat|] == a[i..i + |pat|];
    }
    assert a + pat + b == a + (pat + b);
    ReplaceAllAppend(a, pat + b, pat, rep);
    assert OccursAt(pat + b, pat, 0);
    assert (pat + b)[|pat|..] == b;
  }

  /** Two characters of `b` that cannot both continue `pat` keep any
      occurrence from straddling the join. */
  lemma NoStraddleByTwo(a: string, b: string, pat: string)
    requires |pat| > 0 && |b| >= 2 && b[1] !in pat && b[0] != pat[|pat| - 1]
    ensures NoStraddle(a, b, pat)
  {
    forall i | 0 <= i < |a| < i + |pat| ensures !OccursAt(a + b, pat, i) {
      var k := |a| - i;
      if i + |pat| <= |a + b| {
        assert (a + b)[i..i + |pat|][k] == b[0];
        if k + 1 < |pat| {
          assert (a + b)[i..i + |pat|][k + 1] == b[1];
        }
      }
    }
  }

  /** A first character of `b` that cannot continue `pat` keeps any
      occurrence from straddling the join. */
  lemma NoStraddleByOne(a: string, b: string, pat: string)
    requires |pat| > 0 && |b| > 0 && b[0] !in pat[1..]
    ensures NoStraddle(a, b, pat)
  {
    forall i | 0 <= i < |a| < i + |pat| ensures !OccursAt(a + b, pat, i) {
      var k := |a| - i;
      if i + |pat| <= |a + b| {
        assert (a + b)[i..i + |pat|][k] == b[0];
        assert pat[1..][k - 1] == pat[k];
      }
    }
  }

  /** A string lacking one of the pattern's characters holds no occurrence. */
  lemma MissingChar(s: string, pat: string, k: nat)
    requires k < |pat| && pat[k] !in s
    ensures !Contains(s, pat)
  {
    forall i | 0 <= i <= |s| ensures !OccursAt(s, pat, i) {
      if i + |pat| <= |s| {
        assert s[i..i + |pat|][k] == s[i + k];
      }
    }
  }

  /** Every character of `u` is in `sigma`. */
  predicate Within(u: string, sigma: set<char>) {
    forall k :: 0 <= k < |u| ==> u[k] in sigma
  }

  /** No character of `rep` is in `sigma`. */
  predicate Outside(rep: string, sigma: set<char>) {
    forall k :: 0 <= k < |rep| ==> rep[k] !in sigma
  }

  /** A result that starts with a run of `sigma` characters, where the
      replacement holds none, comes from an input starting with that run. */
  lemma {:induction false} ReplaceAllKeepsFront(x: string, pat: string, rep: string, sigma: set<char>, w: string)
    requires |pat| > 0 && |rep| > 0 && Outside(rep, sigma)
    ensures |w| > 0 && Within(w, sigma) && OccursAt(ReplaceAll(x, pat, rep), w, 0) ==> OccursAt(x, w, 0)
    decreases |x|
  {
    var r := ReplaceAll(x, pat, rep);
    if OccursAt(x, pat, 0) {
      assert r[0] == rep[0];
    } else if |x| > 0 && |w| > 0 {
      var r1 := ReplaceAll(x[1..], pat, rep);
      assert r == [x[0]] + r1;
      assert x == [x[0]] + x[1..];
      ReplaceAllKeepsFront(x[1..], pat, rep, sigma, w[1..]);
      ConsOccurs(x[0], r1, w);
      ConsOccurs(x[0], x[1..], w);
      WithinTail(w, sigma);
    }
  }

  /** A run at the front of `[c] + t` is `c` followed by a run at the front of `t`. */
  lemma ConsOccurs(c: char, t: string, w: string)
    requires |w| > 0
    ensures OccursAt([c] + t, w, 0) <==> w[0] == c && OccursAt(t, w[1..], 0)
  {
    if |w| <= |t| + 1 {
      assert ([c] + t)[..|w|] == [c] + t[..|w| - 1];
      assert w == [w[0]] + w[1..];
    }
  }

  lemma WithinTail(w: string, sigma: set<char>)
    requires |w| > 0
    ensures Within(w, sigma) ==> Within(w[1..], sigma)
  {
    if Within(w, sigma) {
      forall k | 0 <= k < |w| - 1 ensures w[1..][k] in sigma {
        assert w[1..][k] == w[k + 1];
      }
    }
  }

  /** Replacing by text outside `sigma` creates no run of `sigma`
      characters: every such run found in the result was in the input. */
  lemma {:induction false} ReplaceAllCreatesNoRun(s: string, pat: string, rep: string, sigma: set<char>, u: string, j: int)
    requires |pat| > 0 && |rep| > 0 && Outside(rep, sigma)
    ensures |u| > 0 && Within(u, sigma) && OccursAt(ReplaceAll(s, pat, rep), u, j) ==> Contains(s, u)
    decreases |s|
  {
    var r := ReplaceAll(s, pat, rep);
    if OccursAt(s, pat, 0) {
      var t := s[|pat|..];
      assert r == rep + ReplaceAll(t, pat, rep);
      if j >= |rep| {
        ReplaceAllCreatesNoRun(t, pat, rep, sigma, u, j - |rep|);
        OccursInSuffix(r, |rep|, u, j);
        ContainsFromSuffix(s, |pat|, u);
      } else if 0 <= j && |u| > 0 && j + |u| <= |r| {
        assert r[j..j + |u|][0] == rep[j];
      }
    } else if |s| > 0 {
      assert r == [s[0]] + ReplaceAll(s[1..], pat, rep);
      if j >= 1 {
        ReplaceAllCreatesNoRun(s[1..], pat, rep, sigma, u, j - 1);
        OccursInSuffix(r, 1, u, j);
        ContainsFromSuffix(s, 1, u);
      } else if j == 0 {
        ReplaceAllKeepsFront(s, pat, rep, sigma, u);
        if |u| > 0 && Within(u, sigma) && OccursAt(r, u, 0) {
          assert OccursAt(s, u, 0);
        }
      }
    }
  }

  lemma OccursInSuffix(r: string, d: nat, u: string, j: int)
    requires d <= j && d <= |r|
    ensures OccursAt(r, u, j) ==> OccursAt(r[d..], u, j - d)
  {
    if OccursAt(r, u, j) {
      assert r[d..][j - d..j - d + |u|] == r[j..j + |u|];
    }
  }

  lemma ContainsFromSuffix(s: string, d: nat, u: string)
    requires d <= |s|
    ensures Contains(s[d..], u) ==> Contains(s, u)
  {
    if Contains(s[d..], u) {
      var i :| 0 <= i <= |s[d..]| && OccursAt(s[d..], u, i);
      assert s[i + d..i + d + |u|] == s[d..][i..i + |u|];
      assert OccursAt(s, u, i + d);
    }
  }

  /** A pattern absent from the input is absent from the result when the
      replacement shares no character with it. */
  lemma KeepsAbsent(s: string, pat: string, rep: string, q: string)
    requires |pat| > 0 && |rep| > 0 && |q| > 0
    requires forall k :: 0 <= k < |rep| ==> rep[k] !in q
    requires !Contains(s, q)
    ensures !Contains(ReplaceAll(s, pat, rep), q)
  {
    var sigma := set k | 0 <= k < |q| :: q[k];
    assert Outside(rep, sigma);
    assert Within(q, sigma);
    var r := ReplaceAll(s, pat, rep);
    forall j | 0 <= j <= |r| ensures !OccursAt(r, q, j) {
      ReplaceAllCreatesNoRun(s, pat, rep, sigma, q, j);
    }
  }

  /** A prefix holding no occurrence of `pat`, followed by a character
      that cannot continue one, passes through `replace` untouched. */
  lemma {:induction false} ReplaceAllKeepsPrefix(a: string, b: string, pat: string, rep: string)
    requires |pat| > 0
    requires !Contains(a, pat)
    requires |b| > 0 && b[0] !in pat[1..]
    ensures ReplaceAll(a + b, pat, rep) == a + ReplaceAll(b, pat, rep)
    decreases |a|
  {
    if |a| > 0 {
      var s := a + b;
      NoOccurrenceAcross(a, b, pat);
      assert s[1..] == a[1..] + b;
      NotContainsTail(a, pat);
      ReplaceAllKeepsPrefix(a[1..], b, pat, rep);
      assert a == [a[0]] + a[1..];
    } else {
      assert a + b == b;
    }
  }

  /** No occurrence starts at the front of `a + b` under the same conditions. */
  lemma NoOccurrenceAcross(a: string, b: string, pat: string)
    requires |pat| > 0 && |a| > 0 && !Contains(a, pat)
    requires |b| > 0 && b[0] !in pat[1..]
    ensures !OccursAt(a + b, pat, 0)
  {
    var s := a + b;
    if |pat| <= |a| {
      assert s[..|pat|] == a[..|pat|];
      assert !OccursAt(a, pat, 0);
    } else if |pat| <= |s| {
      assert s[|a|] == b[0];
      assert pat[1..][|a| - 1] == pat[|a|];
      assert s[..|pat|][|a|] != pat[|a|];
    }
  }

  /** A string without an occurrence has none in its tail either. */
  lemma NotContainsTail(a: string, pat: string)
    requires |a| > 0
    ensures !Contains(a, pat) ==> !Contains(a[1..], pat)
  {
    forall i | 0 <= i <= |a[1..]| && OccursAt(a[1..], pat, i) ensures Contains(a, pat) {
      assert a[1..][i..i + |pat|] == a[i + 1..i + 1 + |pat|];
      assert OccursAt(a, pat, i + 1);
    }
  }
}

=== FILE: trimmer.dfy ===
/** Stage 2, the per-file body of `trim_all_clams_data`: cut the
    acclimation hours, find the first light-phase change after the cut,
    and keep `keep_hours` from that change on.

    Positions are 0-based row positions of the cleaned table: the source
    reads a label from `.index` and uses it with `.iloc`, which agree
    because a freshly read table has the default 0-based index. */
module Trimmer {
  import opened Common
  import opened Table

  /** `DATE/TIME >= start`; a missing timestamp makes the comparison false. */
  predicate AtOrAfter(r: Row, start: int) {
    r.time.Some? && r.time.value >= start
  }

  /** `lo <= DATE/TIME <= hi`, again false for a missing timestamp. */
  predicate InWindow(r: Row, lo: int, hi: int) {
    r.time.Some? && lo <= r.time.value <= hi
  }

  /** The acclimation cutoff `first timestamp + trim_hours`; `None` when
      the first timestamp is missing, since then no row compares after it. */
  function Cutoff(rows: seq<Row>, trimHours: int): (c: Option<int>)
    requires |rows| > 0
    ensures c.Some? <==> rows[0].time.Some?
    ensures c.Some? ==> c.value - rows[0].time.value == trimHours * SecondsPerHour
    ensures c.Some? && trimHours >= 0 ==> AtOrAfter(rows[0], rows[0].time.value) && c.value >= rows[0].time.value
  {
    match rows[0].time
    case None => None
    case Some(t) => Some(t + trimHours * SecondsPerHour)
  }

  /** Row `j` survives the acclimation filter `df[df['DATE/TIME'] >= start]`. */
  predicate AfterCutoff(rows: seq<Row>, trimHours: int, j: int) {
    && 0 <= j < |rows|
    && Cutoff(rows, trimHours).Some?
    && AtOrAfter(rows[j], Cutoff(rows, trimHours).value)
  }

  /** The reference row (first row after the cut, whose phase is noted)
      and the anchor row (first row after the cut in another phase). */
  datatype Anchor = Anchor(reference: nat, position: nat)

  /** The defining property of the anchor, independent of how it is found. */
  predicate IsAnchor(rows: seq<Row>, trimHours: int, a: Anchor) {
    && a.reference <= a.position < |rows|
    && AfterCutoff(rows, trimHours, a.reference)
    && (forall j :: 0 <= j < a.reference ==> !AfterCutoff(rows, trimHours, j))
    && AfterCutoff(rows, trimHours, a.position)
    && rows[a.position].led != rows[a.reference].led
    && (forall j :: a.reference <= j < a.position && AfterCutoff(rows, trimHours, j) ==>
          rows[j].led == rows[a.reference].led)
  }

  /** First position at or after `from` that survives the cut. */
  function FirstAfterCutoff(rows: seq<Row>, trimHours: int, from: nat): (r: Option<nat>)
    ensures r.Some? ==> from <= r.value < |rows| && AfterCutoff(rows, trimHours, r.value)
                        && forall j :: from <= j < r.value ==> !AfterCutoff(rows, trimHours, j)
    ensures r.None? ==> forall j :: from <= j < |rows| ==> !AfterCutoff(rows, trimHours, j)
    decreases |rows| - from
  {
    if from >= |rows| then None
    else if AfterCutoff(rows, trimHours, from) then Some(from)
    else FirstAfterCutoff(rows, trimHours, from + 1)
  }

  /** First position at or after `from` that survives the cut and is not
      in phase `phase`. */
  function FirstLeaving(rows: seq<Row>, trimHours: int, phase: int, from: nat): (r: Option<nat>)
    ensures r.Some? ==> from <= r.value < |rows| && AfterCutoff(rows, trimHours, r.value)
                        && rows[r.value].led != phase
                        && forall j :: from <= j < r.value && AfterCutoff(rows, trimHours, j) ==> rows[j].led == phase
    ensures r.None? ==> forall j :: from <= j < |rows| && AfterCutoff(rows, trimHours, j) ==> rows[j].led == phase
    decreases |rows| - from
  {
    if from >= |rows| then None
    else if AfterCutoff(rows, trimHours, from) && rows[from].led != phase then Some(from)
    else FirstLeaving(rows, trimHours, phase, from + 1)
  }

  /** Lines 96-105: the edge detector. Fails as the source does when the
      table is empty, when no row survives the cut, or when every row after
      the cut stays in the reference phase. */
  function FindAnchor(rows: seq<Row>, trimHours: int): (r: Result<Anchor>)
    ensures r.Ok? ==> IsAnchor(rows, trimHours, r.value)
    ensures r.Ok? ==> rows[r.value.position].time.value >= rows[0].time.value + trimHours * SecondsPerHour
    ensures r == Err(EmptyTable) <==> |rows| == 0
    ensures r == Err(NoRowAfterCutoff) <==>
      |rows| > 0 && forall j :: 0 <= j < |rows| ==> !AfterCutoff(rows, trimHours, j)
    ensures r == Err(NoTransition) <==>
      && (exists j :: AfterCutoff(rows, trimHours, j))
      && (forall i, j :: AfterCutoff(rows, trimHours, i) && AfterCutoff(rows, trimHours, j) ==> rows[i].led == rows[j].led)
    ensures r.Err? ==> r.failure in {EmptyTable, NoRowAfterCutoff, NoTransition}
  {
    if |rows| == 0 then Err(EmptyTable)
    else
      match FirstAfterCutoff(rows, trimHours, 0)
      case None => Err(NoRowAfterCutoff)
      case Some(q) =>
        match FirstLeaving(rows, trimHours, rows[q].led, q)
        case None => Err(NoTransition)
        case Some(a) => Ok(Anchor(q, a))
  }

  /** The anchor is unique. */
  lemma AnchorUnique(rows: seq<Row>, trimHours: int, a: Anchor, b: Anchor)
    requires IsAnchor(rows, trimHours, a) && IsAnchor(rows, trimHours, b)
    ensures a == b
  {
    assert a.reference == b.reference;
  }

  /** The edge detector finds exactly the anchor: it succeeds with `a`
      if and only if `a` has the defining property. */
  lemma FindAnchorExact(rows: seq<Row>, trimHours: int, a: Anchor)
    ensures FindAnchor(rows, trimHours) == Ok(a) <==> IsAnchor(rows, trimHours, a)
  {
    if IsAnchor(rows, trimHours, a) {
      var r := FindAnchor(rows, trimHours);
      assert AfterCutoff(rows, trimHours, a.position) && AfterCutoff(rows, trimHours, a.reference);
      assert r != Err(EmptyTable) && r != Err(NoRowAfterCutoff) && r != Err(NoTransition);
      AnchorUnique(rows, trimHours, a, r.value);
    }
  }

  /** `df[(df['DATE/TIME'] >= lo) & (df['DATE/TIME'] <= hi)]`: the rows
      inside the window, in table order. */
  function Window(rows: seq<Row>, lo: int, hi: int): (r: seq<Row>)
    ensures |r| <= |rows|
    ensures forall k :: 0 <= k < |r| ==> InWindow(r[k], lo, hi)
  {
    if |rows| == 0 then []
    else (if InWindow(rows[0], lo, hi) then [rows[0]] else []) + Window(rows[1..], lo, hi)
  }

  /** Filtering distributes over concatenation: order is kept, and every
      row is kept or dropped on its own merit. */
  lemma {:induction false} WindowAppend(a: seq<Row>, b: seq<Row>, lo: int, hi: int)
    ensures Window(a + b, lo, hi) == Window(a, lo, hi) + Window(b, lo, hi)
    decreases |a|
  {
    if |a| == 0 {
      assert a + b == b;
    } else {
      assert (a + b)[1..] == a[1..] + b;
      WindowAppend(a[1..], b, lo, hi);
    }
  }

  /** A row is kept exactly when it lies in the window: nothing else is
      dropped and nothing is added. */
  lemma {:induction false} WindowMembers(rows: seq<Row>, lo: int, hi: int, x: Row)
    ensures x in Window(rows, lo, hi) <==> x in rows && InWindow(x, lo, hi)
    decreases |rows|
  {
    if |rows| > 0 {
      WindowMembers(rows[1..], lo, hi, x);
      assert rows == [rows[0]] + rows[1..];
    }
  }

  /** Lines 107-112: the rows of the whole table (not only those after the
      cut) with `anchor time <= DATE/TIME <= anchor time + keep_hours`. */
  function Trim(rows: seq<Row>, trimHours: int, keepHours: int): (r: Result<seq<Row>>)
    ensures r.Err? <==> FindAnchor(rows, trimHours).Err?
    ensures r.Err? ==> r.failure == FindAnchor(rows, trimHours).failure
    ensures r.Ok? ==> AllTimed(r.value)
    ensures r.Ok? ==> var t := rows[FindAnchor(rows, trimHours).value.position].time.value;
      forall k :: 0 <= k < |r.value| ==> t <= r.value[k].time.value <= t + keepHours * SecondsPerHour
  {
    match FindAnchor(rows, trimHours)
    case Err(e) => Err(e)
    case Ok(a) =>
      var t := rows[a.position].time.value;
      Ok(Window(rows, t, t + keepHours * SecondsPerHour))
  }

  /** The trimmed table is the window around the anchor: a row of the
      table is kept if and only if its timestamp lies in the window, and
      the anchor row itself is kept when `keep_hours` is not negative. */
  lemma TrimKeepsWindow(rows: seq<Row>, trimHours: int, keepHours: int, i: nat)
    requires Trim(rows, trimHours, keepHours).Ok? && i < |rows|
    ensures var a := FindAnchor(rows, trimHours).value;
      var t := rows[a.position].time.value;
      rows[i] in Trim(rows, trimHours, keepHours).value <==> InWindow(rows[i], t, t + keepHours * SecondsPerHour)
    ensures keepHours >= 0 ==>
      rows[FindAnchor(rows, trimHours).value.position] in Trim(rows, trimHours, keepHours).value
  {
    var a := FindAnchor(rows, trimHours).value;
    var t := rows[a.position].time.value;
    WindowMembers(rows, t, t + keepHours * SecondsPerHour, rows[i]);
    WindowMembers(rows, t, t + keepHours * SecondsPerHour, rows[a.position]);
  }

  /** With the timed rows in order (untimed rows anywhere), the trimmed
      table starts exactly at the light-phase change it was anchored to. */
  lemma TrimStartsAtAnchor(rows: seq<Row>, trimHours: int, keepHours: int)
    requires TimedInOrder(rows) && keepHours >= 0
    requires Trim(rows, trimHours, keepHours).Ok?
    ensures var out := Trim(rows, trimHours, keepHours).value;
      |out| > 0 && out[0].time == rows[FindAnchor(rows, trimHours).value.position].time
  {
    var p := FindAnchor(rows, trimHours).value.position;
    var t := rows[p].time.value;
    var hi := t + keepHours * SecondsPerHour;
    WindowAround(rows, p, t, hi);
    EarlyRowsAtTime(rows, p, t, hi);
    var early := Window(rows[..p], t, hi);
    if |early| > 0 {
      assert early[0] in early;
    }
  }

  /** The window splits at a kept row into what comes before it, the row
      itself, and what comes after. */
  lemma WindowAround(rows: seq<Row>, p: nat, lo: int, hi: int)
    requires p < |rows| && InWindow(rows[p], lo, hi)
    ensures Window(rows, lo, hi) == Window(rows[..p], lo, hi) + [rows[p]] + Window(rows[p + 1..], lo, hi)
  {
    assert rows == rows[..p] + ([rows[p]] + rows[p + 1..]);
    WindowAppend(rows[..p], [rows[p]] + rows[p + 1..], lo, hi);
    WindowAppend([rows[p]], rows[p + 1..], lo, hi);
    assert Window([rows[p]], lo, hi) == [rows[p]];
  }

  /** With the timed rows in order, the rows before `p` that the window
      starting at row `p`'s time keeps all carry exactly that time. */
  lemma EarlyRowsAtTime(rows: seq<Row>, p: nat, t: int, hi: int)
    requires p < |rows| && TimedInOrder(rows) && rows[p].time == Some(t)
    ensures forall x :: x in Window(rows[..p], t, hi) ==> x.time == Some(t)
  {
    forall x | x in Window(rows[..p], t, hi) ensures x.time == Some(t) {
      WindowMembers(rows[..p], t, hi, x);
      var j :| 0 <= j < p && rows[..p][j] == x;
      assert rows[j] == x;
    }
  }
}
